=== FILE: README.md ===
# tmsproxy core, modelled in Dafny

tmsproxy is a small Vert.x proxy for TMS map tiles. It serves `GET /tms/:name/:z/:x/:y` by
resolving a tile source's upstream URL template, fetching the tile and passing the upstream
response through. A filesystem cache stores tiles as `root/set/z/x/y/tile.<ext>`. This project
models the logic between the HTTP and file-system calls and proves properties of it:

- **URL templates** (`data/TileSourceUrl`, `config/TileSource`, module `Templates`):
  - The template is split at every `{` and `}` and each one-character part is lower-cased.
  - A part that is then exactly `z`, `x` or `y` is replaced by the decimal coordinate.
  - Both classes keep their parts in an array, lower-case them in place in a loop, and build
    the URL in a second loop. Both loops are proved against the same `Templates.TemplateUrl`
    function, so the two classes build the same URL for the same template.
- **Tile layers** (`data/TileSource`, module `DataSources`): a layer delegates to the template
  at a chosen index.
- **Configuration parsing** (`config/ConfigParser`, module `ConfigParsing`):
  - The JSON input is a `Json` datatype.
  - `parseDuration` is a function.
  - `parseConfig` is a method with two loops. It puts tile sources and caches into maps and
    creates `TileSourceUrl` objects. It is proved equal, through a ghost view, to a fold that
    handles one entry at a time (`ParseTile`, `ParseCache`).
- **Cache results and the file-system cache** (`data/TileCacheResult`, `data/FileSystemUtils`,
  `data/FilesystemTileCache`; modules `CacheResults`, `Paths` and `FsCache`):
  - The file system is a value: directories with their listings, and a set of plain files.
    `mkdirs` creates the missing directories above the tile directory as well.
  - `mkdirs`, `open` and `readDir` are functions over that value.
  - `store` and `retrieve` are methods proved against specification functions.
- **The duplicating write stream** (`util/DuplicatingWriteStream`, module `Streams`):
  - The stream is a class and its two consumers are value fields recording what they were
    told.
  - The drain handler protocol is specified by a replay function over the drain callbacks.
- **The TMS handler** (`handlers/TMSHandler`, module `Tms`):
  - The routing context is a class whose response and `next()` flag the handler updates.
  - The HTTP client is a function from URL to upstream outcome.
  - `getPathParams` is a loop over the sorted keys.

Java library behaviour the core relies on is written out in module `Strings`:

- `String.split` with a character class, which drops trailing empty pieces, and with limit 2;
- `Integer.parseInt` with its 32-bit range;
- decimal rendering by `StringBuilder.append(int)`;
- `String.trim`;
- ASCII `toLowerCase`.

Module `Util` holds `Option`, `Result`, Java's `int` and the index error.

Where the project's documentation and the code disagree, the model follows the code:

- The handler checks no zoom range. The `config.TileSource` it reads has no zoom fields.
- The handler performs no cache lookup.
- The handler forwards any upstream status unchanged and checks no content type.
- An upstream transport failure gives an empty `400`, not `500`.
- Coordinates may be negative or carry a sign.
- `maxAge` and `maxElements` are parsed and validated but never passed to the cache, so nothing
  expires or is evicted.
- `store` opens `tile.<ext>` directly, with no temporary file or rename. A second extension
  therefore leaves two files, and `retrieve` then reports the empty result.
- A failed `mkdirs` or `open` fails the `store` future, rather than being swallowed.
- `retrieve` on a missing directory fails (it is not a miss).
- The drain flags are reset only when a drain handler is registered, so once both sides have
  drained, every later drain fires the handler.
- The stream has no consumer detachment.
- In a template, a one-character literal is lower-cased, and a lower-case `x`, `y` or `z`
  literal is substituted like a placeholder. Braces never reach the URL.

`TMSHandler` reads `config.TileSource` objects from the tile-source map, while `Config` holds
`data.TileSource` objects. Each file's own logic is modelled: `Tms.Handle` takes a map of
`ConfigSources.TileSource`, and `ConfigParsing.Config` holds `DataSources.TileSource`.

## Model

| member | source | states |
|---|---|---|
| DataUrls.TileSourceUrl.constructor | src/main/java/com/github/bitfexl/tmsproxy/data/TileSourceUrl.java:6-13 | the stored parts are the template split at every brace, with each one-character part lower-cased (`Valid`), in a fresh array |
| DataUrls.TileSourceUrl.BuildUrl | src/main/java/com/github/bitfexl/tmsproxy/data/TileSourceUrl.java:15-28 | the loop's result is `TemplateUrl(template, z, x, y)`: the substituted parts concatenated in order |
| Strings.SegmentsInterleave | src/main/java/com/github/bitfexl/tmsproxy/data/TileSourceUrl.java:7 | the brace cut used by the constructor (before trailing empty pieces are dropped) cuts pieces without braces, joined by braces, back into exactly those pieces |
| Templates.ResolvedStep | src/main/java/com/github/bitfexl/tmsproxy/data/TileSourceUrl.java:18-26 | appending one part's contribution extends the URL built from the parts before it |
| Templates.PartsShape | src/main/java/com/github/bitfexl/tmsproxy/data/TileSourceUrl.java:7-12 | no stored part contains a brace, and no one-character part is an upper-case letter |
| Templates.TemplateUrlHasNoBraces | src/main/java/com/github/bitfexl/tmsproxy/data/TileSourceUrl.java:7-27 | no built URL contains `{` or `}`, for every template and tile |
| Templates.LiteralTemplate | src/main/java/com/github/bitfexl/tmsproxy/data/TileSourceUrl.java:7-27 | a template without braces resolves to itself for every tile, unless it is a lone upper-case letter (lower-cased) or a lone `x`, `y` or `z` (substituted) |
| Templates.PlaceholderTemplate | src/main/java/com/github/bitfexl/tmsproxy/data/TileSourceUrl.java:15-28 | `{z}`, `{x}`, `{y}` in either case become the decimal coordinates and the literal text around them is kept verbatim, one-character pieces such as `/` included, provided no literal piece is a lone upper-case letter or a lone `x`, `y` or `z` |
| Templates.KeptLiteralRender | src/main/java/com/github/bitfexl/tmsproxy/data/TileSourceUrl.java:8-24 | a literal piece that is not a lone upper-case letter or lone `x`, `y` or `z` comes out of lower-casing and substitution unchanged |
| Templates.SlippyMapTemplate | src/main/java/com/github/bitfexl/tmsproxy/data/TileSourceUrl.java:15-28 | the usual `<host>{z}/{x}/{y}<suffix>` template gives `<host>z/x/y<suffix>` with the decimal coordinates |
| Templates.LiteralBetweenPlaceholders | src/main/java/com/github/bitfexl/tmsproxy/data/TileSourceUrl.java:8-24 | in `{z}c{y}` (placeholders in either case) the one-character literal `c` is emitted lower-cased, and is substituted when it is then a coordinate letter |
| Templates.OneCharacterLiteral | src/main/java/com/github/bitfexl/tmsproxy/data/TileSourceUrl.java:8-24 | `{z}x{y}` and `{z}X{y}` yield the three numbers side by side; `{z}A{y}` up to `{z}W{y}` keep the lower-cased letter between two |
| ConfigSources.TileSource.constructor | src/main/java/com/github/bitfexl/tmsproxy/config/TileSource.java:12-20 | `name` is kept unchanged (the getter); the parts are the template's split with one-character parts lower-cased |
| ConfigSources.TileSource.BuildUrl | src/main/java/com/github/bitfexl/tmsproxy/config/TileSource.java:22-35 | the result is `TemplateUrl(template, z, x, y)`, the same URL `TileSourceUrl.BuildUrl` builds for that template |
| DataSources.TileSource.BuildUrl | src/main/java/com/github/bitfexl/tmsproxy/data/TileSource.java:25-28 | the result is the URL of the template at the chosen index; it fails exactly when the list is empty; with one template it is that template's URL |
| CacheResults.TileCacheResult.IsEmpty | src/main/java/com/github/bitfexl/tmsproxy/data/TileCacheResult.java:22-27 | a result is empty exactly when it equals `EMPTY`, that is, all three fields are null |
| CacheResults.LastComponent | src/main/java/com/github/bitfexl/tmsproxy/data/TileCacheResult.java:13-14 | the last piece of the path has no `/` or `\`; there is none exactly when the path is made only of separators |
| CacheResults.LastComponentIsLastPiece | src/main/java/com/github/bitfexl/tmsproxy/data/TileCacheResult.java:13-14 | the piece taken is the text after the last separator once trailing separators are ignored (`a/b/` gives `b`) |
| Strings.SplitLast | src/main/java/com/github/bitfexl/tmsproxy/data/TileCacheResult.java:13-14 | the last piece of any non-empty split is the text after the last separator that is followed by something other than separators |
| Strings.SegmentsLast | src/main/java/com/github/bitfexl/tmsproxy/data/TileCacheResult.java:13 | the last piece of the cut is the text after the last separator, and the cut has one piece exactly when there is no separator |
| Strings.DropTrailingSegments | src/main/java/com/github/bitfexl/tmsproxy/data/TileCacheResult.java:13 | separators at the end of the text do not change the result of the split |
| CacheResults.OfFilePath | src/main/java/com/github/bitfexl/tmsproxy/data/TileCacheResult.java:12-16 | fails exactly when the last component has no dot; otherwise keeps the path, has no contents, is not empty, and the name is its text up to the first dot, a dot, then the extension |
| CacheResults.OfFileContents | src/main/java/com/github/bitfexl/tmsproxy/data/TileCacheResult.java:18-20 | extension and contents set, path null, not empty |
| CacheResults.OfFilePathTile | src/main/java/com/github/bitfexl/tmsproxy/data/TileCacheResult.java:12-16 | for `dir/tile.<ext>` the extension recovered is `ext` (everything after the first dot, so `tar.gz` stays whole) |
| CacheResults.OfFilePathWithoutDot | src/main/java/com/github/bitfexl/tmsproxy/data/TileCacheResult.java:15 | a file name without a dot fails with the index error |
| Paths.GetPath | src/main/java/com/github/bitfexl/tmsproxy/data/FileSystemUtils.java:13-24 | the loop's result is `JoinPath(parts, sep)` |
| Paths.JoinPathIsJoin | src/main/java/com/github/bitfexl/tmsproxy/data/FileSystemUtils.java:13-24 | when the first part is not empty, the path is the parts in order with one separator between neighbours |
| Paths.JoinPathLeadingEmpty | src/main/java/com/github/bitfexl/tmsproxy/data/FileSystemUtils.java:16-20 | a leading empty part adds nothing, not even a separator |
| Paths.JoinPathShort | src/main/java/com/github/bitfexl/tmsproxy/data/FileSystemUtils.java:14-23 | no parts give the empty path; one part gives that part |
| Paths.JoinPathStartsWith | src/main/java/com/github/bitfexl/tmsproxy/data/FileSystemUtils.java:16-21 | the path starts with the first part |
| FsCache.Ancestors | src/main/java/com/github/bitfexl/tmsproxy/data/FilesystemTileCache.java:32 | the directories above a path are exactly its non-empty proper prefixes that a separator follows |
| FsCache.MakeAll | src/main/java/com/github/bitfexl/tmsproxy/data/FilesystemTileCache.java:32 | creating a chain of directories adds exactly those directories; the listings of existing ones only grow, and only by directories of the chain that were missing |
| FsCache.Mkdirs | src/main/java/com/github/bitfexl/tmsproxy/data/FilesystemTileCache.java:32 | an existing directory succeeds unchanged; a plain file at the path, or at a directory above a missing path, fails; otherwise the path and the directories above it exist afterwards, the path is new and empty, files and older listings are kept |
| FsCache.Open | src/main/java/com/github/bitfexl/tmsproxy/data/FilesystemTileCache.java:34 | fails exactly when the path is a directory; otherwise the file exists afterwards and a new file is appended to its directory's listing |
| FsCache.Decide | src/main/java/com/github/bitfexl/tmsproxy/data/FilesystemTileCache.java:47-55 | one file gives `ofFilePath` of it (or its index error); zero or several give `EMPTY` |
| FsCache.FilesystemTileCache.GetPath | src/main/java/com/github/bitfexl/tmsproxy/data/FilesystemTileCache.java:58-69 | the private copy builds the same `JoinPath` as `FileSystemUtils.getPath` |
| FsCache.FilesystemTileCache.Store | src/main/java/com/github/bitfexl/tmsproxy/data/FilesystemTileCache.java:30-41 | the method's result is `StoreSpec`: `mkdirs` of the tile directory, then `open` of `tile.<ext>` in it, either failure failing the result |
| FsCache.FilesystemTileCache.StoreSpec | src/main/java/com/github/bitfexl/tmsproxy/data/FilesystemTileCache.java:30-41 | fails exactly when the tile directory is a plain file, or it is missing and a directory above it is a plain file, or the tile file is a directory; on success the tile file and its directory exist |
| FsCache.FilesystemTileCache.Retrieve | src/main/java/com/github/bitfexl/tmsproxy/data/FilesystemTileCache.java:44-56 | the method's result is `RetrieveSpec`: it lists the same directory `store` uses; a missing directory fails, otherwise the listing decides |
| FsCache.TileDirLayout | src/main/java/com/github/bitfexl/tmsproxy/data/FilesystemTileCache.java:58-69 | under a non-empty root the tile directory is `root/set/z/x/y` |
| FsCache.StoreThenRetrieve | src/main/java/com/github/bitfexl/tmsproxy/data/FilesystemTileCache.java:30-56 | storing into an empty coordinate directory, or a missing one with no plain file above it, and retrieving yields the stored extension and the file's path |
| FsCache.StoreIdempotent | src/main/java/com/github/bitfexl/tmsproxy/data/FilesystemTileCache.java:30-41 | storing the same tile again changes nothing |
| FsCache.TwoExtensionsRetrieveEmpty | src/main/java/com/github/bitfexl/tmsproxy/data/FilesystemTileCache.java:44-56 | two stored extensions for one coordinate leave two files, and `retrieve` gives `EMPTY` |
| FsCache.StoreBlockedByFile | src/main/java/com/github/bitfexl/tmsproxy/data/FilesystemTileCache.java:32-40 | a plain file where the directory belongs fails the store |
| FsCache.StoreBlockedByAncestor | src/main/java/com/github/bitfexl/tmsproxy/data/FilesystemTileCache.java:32-40 | when the coordinate directory is missing, a plain file named like the root fails the store |
| ConfigParsing.UnitSeconds | src/main/java/com/github/bitfexl/tmsproxy/config/ConfigParser.java:138-144 | exactly `s`, `m`, `h` and `d` are units |
| ConfigParsing.ParseDuration | src/main/java/com/github/bitfexl/tmsproxy/config/ConfigParser.java:130-145 | the empty string fails on the index; a numeric part (the whole text before a final digit, else the trimmed text before the unit) that `parseInt` refuses fails with `NumberFormat`; a success is that integer times 3600 for a final digit or times the unit's seconds |
| ConfigParsing.ParseDurationNotANumber | src/main/java/com/github/bitfexl/tmsproxy/config/ConfigParser.java:131-136 | a numeric part holding a character other than a digit after an optional sign fails with `NumberFormat`, whatever the last character |
| ConfigParsing.ParseDurationFraction | src/main/java/com/github/bitfexl/tmsproxy/config/ConfigParser.java:131-136 | `1.5` and `1.5h` fail with `NumberFormat` |
| Strings.ParseIntNonDigit | src/main/java/com/github/bitfexl/tmsproxy/config/ConfigParser.java:133 | `Integer.parseInt` refuses a text with a non-digit past the optional sign |
| ConfigParsing.ParseDurationHours | src/main/java/com/github/bitfexl/tmsproxy/config/ConfigParser.java:131-134 | a bare integer `n` is `n` hours |
| ConfigParsing.ParseDurationUnit | src/main/java/com/github/bitfexl/tmsproxy/config/ConfigParser.java:136-142 | a number padded with blanks, then a unit, is the number of seconds, minutes, hours or days |
| ConfigParsing.ParseDurationBadUnit | src/main/java/com/github/bitfexl/tmsproxy/config/ConfigParser.java:143 | any other final character fails with `Unable to parse duration '…'.` |
| ConfigParsing.DefaultMaxAge | src/main/java/com/github/bitfexl/tmsproxy/config/ConfigParser.java:19 | the default `48h` is 172800 seconds |
| ConfigParsing.SourceTemplates | src/main/java/com/github/bitfexl/tmsproxy/config/ConfigParser.java:51-61 | the templates are the `sources` strings in order, and reading them fails exactly when some element is not a string |
| ConfigParsing.ParseTile | src/main/java/com/github/bitfexl/tmsproxy/config/ConfigParser.java:40-74 | an accepted tile entry has a name not yet taken and at least one template |
| ConfigParsing.ParseTileFields | src/main/java/com/github/bitfexl/tmsproxy/config/ConfigParser.java:40-74 | an accepted tile entry is an object whose name, templates, cache and zoom bounds are the values read from its keys; a missing or null name fails with the name message; a name already taken fails as a duplicate |
| ConfigParsing.ParseCache | src/main/java/com/github/bitfexl/tmsproxy/config/ConfigParser.java:90-119 | an accepted cache entry has a name not yet taken |
| ConfigParsing.ParseCacheFields | src/main/java/com/github/bitfexl/tmsproxy/config/ConfigParser.java:90-119 | an accepted cache entry is an object whose name, directory and maximum size are the values of its keys and whose maximum age is `parseDuration` of its `maxAge` (default `48h`); a missing or null name fails with the name message; a name already taken fails as a duplicate |
| ConfigParsing.NewUrls | src/main/java/com/github/bitfexl/tmsproxy/config/ConfigParser.java:57 | one fresh, valid `TileSourceUrl` per template, in order |
| ConfigParsing.ParseConfig | src/main/java/com/github/bitfexl/tmsproxy/config/ConfigParser.java:22-123 | the loops fail with exactly the error of `ParseConfigSpec`, or succeed with a config whose view is its result, every URL object fresh and valid |
| ConfigParsing.ParseTilesFromShape | src/main/java/com/github/bitfexl/tmsproxy/config/ConfigParser.java:39-75 | each tile entry is stored under its own name as parsed from its own entry, earlier entries are kept, names are pairwise distinct, and the map grows by the number of entries |
| ConfigParsing.ParseCachesFromShape | src/main/java/com/github/bitfexl/tmsproxy/config/ConfigParser.java:89-120 | each cache entry is stored under its own name with its own directory; names are distinct; the map grows by the number of entries |
| ConfigParsing.ParsedConfig | src/main/java/com/github/bitfexl/tmsproxy/config/ConfigParser.java:22-123 | a successful parse has one tile source per entry of a non-empty `tiles` array, each under its own name with at least one template; an absent `port` is 80; absent `caches` give no caches |
| ConfigParsing.DuplicateTileNames | src/main/java/com/github/bitfexl/tmsproxy/config/ConfigParser.java:47-49 | two tile entries with the same name make the parse fail |
| ConfigParsing.DuplicateCacheNames | src/main/java/com/github/bitfexl/tmsproxy/config/ConfigParser.java:97-99 | two cache entries with the same name make the parse fail |
| ConfigParsing.MinimalTile | src/main/java/com/github/bitfexl/tmsproxy/config/ConfigParser.java:66-74 | a tile entry with only a name and templates gets no cache and zoom 0 to 20 |
| ConfigParsing.MinimalCache | src/main/java/com/github/bitfexl/tmsproxy/config/ConfigParser.java:101-108 | a cache entry with only a name and a directory gets 48 hours and 500000 elements |
| ConfigParsing.CacheWithoutDirectory | src/main/java/com/github/bitfexl/tmsproxy/config/ConfigParser.java:90-119 | any cache entry whose directory is absent or null is refused, with the directory message when its name, maximum age and maximum size are acceptable |
| ConfigParsing.ExampleConfig | src/main/java/com/github/bitfexl/tmsproxy/config/ConfigParser.java:22-123 | a one-source, one-cache configuration, whatever its template and directory, parses to port 80, that source with zoom 0 to 20, and that cache |
| ConfigParsing.SingleTile | src/main/java/com/github/bitfexl/tmsproxy/config/ConfigParser.java:39-75 | a `tiles` array of one valid entry yields exactly that entry under its name |
| ConfigParsing.SingleCache | src/main/java/com/github/bitfexl/tmsproxy/config/ConfigParser.java:89-120 | a `caches` array of one valid entry yields exactly one cache on that entry's directory under its name |
| Streams.ReplayFlags | src/main/java/com/github/bitfexl/tmsproxy/util/DuplicatingWriteStream.java:58-74 | each flag is set exactly when its side has drained since registration |
| Streams.FiringsCharacterised | src/main/java/com/github/bitfexl/tmsproxy/util/DuplicatingWriteStream.java:62-74 | a drain callback calls the handler exactly when an earlier callback since registration came from the other side |
| Streams.OneSideNeverFires | src/main/java/com/github/bitfexl/tmsproxy/util/DuplicatingWriteStream.java:62-74 | one side draining, however often, never calls the handler |
| Streams.BothDrainedAlwaysFires | src/main/java/com/github/bitfexl/tmsproxy/util/DuplicatingWriteStream.java:62-74 | once both sides have drained, every later callback calls the handler |
| Streams.DuplicatingWriteStream.constructor | src/main/java/com/github/bitfexl/tmsproxy/util/DuplicatingWriteStream.java:13-16 | keeps both consumers; both flags start cleared |
| Streams.DuplicatingWriteStream.ExceptionHandler | src/main/java/com/github/bitfexl/tmsproxy/util/DuplicatingWriteStream.java:19-23 | the same handler is installed on both consumers; nothing else changes |
| Streams.DuplicatingWriteStream.Write | src/main/java/com/github/bitfexl/tmsproxy/util/DuplicatingWriteStream.java:26-28 | the same item is appended to both consumers; the result succeeds exactly when both writes do |
| Streams.DuplicatingWriteStream.End | src/main/java/com/github/bitfexl/tmsproxy/util/DuplicatingWriteStream.java:36-38 | both consumers are ended; the result succeeds exactly when both ends do |
| Streams.DuplicatingWriteStream.SetWriteQueueMaxSize | src/main/java/com/github/bitfexl/tmsproxy/util/DuplicatingWriteStream.java:46-50 | both consumers get the same maximum size |
| Streams.DuplicatingWriteStream.WriteQueueFull | src/main/java/com/github/bitfexl/tmsproxy/util/DuplicatingWriteStream.java:53-55 | full exactly when either consumer's queue is full |
| Streams.DuplicatingWriteStream.DrainHandler | src/main/java/com/github/bitfexl/tmsproxy/util/DuplicatingWriteStream.java:58-77 | both flags are cleared and the new handler is installed on both sides |
| Streams.DuplicatingWriteStream.OnADrain | src/main/java/com/github/bitfexl/tmsproxy/util/DuplicatingWriteStream.java:62-67 | records `a`'s drain and calls the handler exactly as `Firings` says for this callback |
| Streams.DuplicatingWriteStream.OnBDrain | src/main/java/com/github/bitfexl/tmsproxy/util/DuplicatingWriteStream.java:69-74 | records `b`'s drain and calls the handler exactly as `Firings` says for this callback |
| Tms.ParseParams | src/main/java/com/github/bitfexl/tmsproxy/handlers/TMSHandler.java:33-43 | parsed coordinates are the `parseInt` values of `z`, `x` and of the text of `y` before its first dot; a bad `z` or `x` passes the request on whatever `y` is; with good `z` and `x`, the split of `y` is empty exactly when `y` is non-empty and all dots, and coordinates come out exactly when it is not and the text before the first dot parses |
| Tms.Handle | src/main/java/com/github/bitfexl/tmsproxy/handlers/TMSHandler.java:33-67 | bad numbers or an unknown layer call `next()` and leave the response alone; otherwise the upstream answer for `TemplateUrl` of the layer is forwarded with its status, content type, length and body, and a transport failure gives an ended, empty `400`; an all-dots `y` escapes with an exception, and so does a layer URL the client's `setAbsoluteURI` refuses; no upstream request is made on bad numbers, an unknown layer or either escape, and a forwarded request asks for exactly `TemplateUrl` of the layer |
| Tms.YSuffixDiscarded | src/main/java/com/github/bitfexl/tmsproxy/handlers/TMSHandler.java:36-38 | `y` written as `n.ext` reads as `n`, the same as `n` alone |
| Tms.SignedCoordinates | src/main/java/com/github/bitfexl/tmsproxy/handlers/TMSHandler.java:36-38 | a leading `+` is accepted |
| Tms.EmptyYPassesOn | src/main/java/com/github/bitfexl/tmsproxy/handlers/TMSHandler.java:38-42 | an empty text before the dot of `y` passes the request on |
| Tms.DotsOnlyEscapes | src/main/java/com/github/bitfexl/tmsproxy/handlers/TMSHandler.java:38 | a `y` of dots only gives an empty split and the index error escapes |
| Tms.GetPathParams | src/main/java/com/github/bitfexl/tmsproxy/handlers/TMSHandler.java:69-80 | the text is the `key = value` lines of the sorted keys, concatenated |
| Tms.PathParamsLines | src/main/java/com/github/bitfexl/tmsproxy/handlers/TMSHandler.java:69-80 | splitting that text at line breaks gives back one `key = value` entry per parameter, in key order |

## Left out

- `MainVerticle`: process start-up, the HTTP listener, reading the configuration file and
  exiting the process are I/O. `DefaultHandler` is a fixed 404 responder.
  `FilesystemHashTileCache` only throws `UnsupportedOperationException`. `TileCache` is an
  interface, and its `store` signature does not match the implementation.
- Expiration and eviction: `maxAge` and `maxElements` are validated but never used, so there is
  no behaviour to model.
- Vert.x futures, the asynchronous file system, the HTTP client, `pipeTo` and the routing
  context are replaced by values:
  - the file system is a map from directory to listing plus a set of files;
  - the upstream outcome is a function of the URL;
  - a response is a record;
  - each consumer's write and end outcomes are parameters.
- Logging is left out.
- `DataSources.TileSource.BuildUrl`: `Math.random()` is floating point. The chosen index is a
  parameter constrained to what `(int) (Math.random() * size)` can produce.
- `FsCache.FilesystemTileCache`: the root is taken as given. Its normalisation by `Path.of` is
  a library call that is not modelled.
- `FsCache.FilesystemTileCache`: the file separator is a single character, and the model leaves
  open which one it is. `System.getProperty` is not modelled.
- `FsCache.FilesystemTileCache.StoreSpec`: the extension is taken to be a media subtype without a
  path separator, so `tile.<ext>` sits directly in the coordinate directory. An extension such as
  `png/x` would make Java's `open` fail on the missing `tile.png` directory; the model instead
  lists the file under the coordinate directory.
- `FsCache.FilesystemTileCache.Store`: the open file handed back as the write stream is not
  modelled; only the file's creation is.
- `Strings.LowerChar`: locale-sensitive and non-ASCII lower-casing is restricted to ASCII.
- `Strings.ParseInt`: Unicode digits accepted by `Integer.parseInt` and `Character.isDigit`
  are restricted to ASCII digits.
- `ConfigParsing.GetInt`, `ConfigParsing.GetString`, `ConfigParsing.GetArray`: the Vert.x JSON
  accessors are written out from the Vert.x 4 `JsonObject` behaviour, which is not part of this
  model. Only integral JSON numbers are represented.
- `ConfigParsing.GetString`: a JSON array or object read with `getString` gives its encoded
  JSON text in Vert.x 4; the model fails it with a class-cast error instead, because key order
  and JSON encoding are not modelled.
- Java strings are UTF-16 code units, and Dafny strings are sequences of characters. Text
  with characters outside the Basic Multilingual Plane is not modelled faithfully: the key
  order of `Tms.Below` compares characters rather than code units, and `ConfigParsing.ParseDuration`
  takes a whole character rather than the last code unit.
- `FsCache.Mkdirs`: a failure reports the path asked for, not the directory whose creation
  failed. New directories are listed in their parent, but only the coordinate directory's
  listing is ever read.
- `FsCache.FilesystemTileCache.Retrieve`: `readDir` returns canonical absolute paths in the
  file system's order. The model lists the path as composed, in creation order. The result's
  file path therefore equals the stored path only for an absolute, canonical root. The order
  matters only when there are several files, and then the result is `EMPTY` regardless.
- `Streams.DuplicatingWriteStream.QueuesChanged`: the consumers' queues fill and drain through
  their own I/O. This method stands in for that environment step and has no counterpart in the
  source.
- `ConfigParsing.ParseCache`: `maxAge` and `maxElements` are checked, then dropped as the
  source drops them.
- `Streams.DuplicatingWriteStream`: `volatile` fields and threads are left out, because the
  callbacks run on one event loop. The case where `a` and `b` are the same stream is not
  modelled, because each consumer is a separate value.
- `Streams.DuplicatingWriteStream`: the handler-taking overloads `write(data, handler)` and
  `end(handler)` only attach the handler to the same combined future, so they are not modelled
  separately.
- `Tms.GetPathParams`: the library's stream sort is not modelled. The sorted key list is an
  input required to be the key set in `String.compareTo` order, compared by character code.
- `Tms.Handle`: when an upstream header is absent, `putHeader` is assumed to leave the header
  out. The route registration in the constructor is left out.
- `Tms.Handle`: which URLs Vert.x 4's `RequestOptions.setAbsoluteURI` refuses (parsing by
  `java.net.URL`, a scheme other than http or https) is a parameter, `accepts`. The URL parser
  is not part of this model; only the consequence of a refusal is: the exception escapes and no
  request is made.

=== FILE: config_parser.dfy ===
/**
 * `config/ConfigParser`: turns the raw JSON configuration into a `Config` holding the tile
 * sources and the caches, or stops at the first problem with an exception.
 *
 * The JSON accessors of the Vert.x `JsonObject`/`JsonArray` are written out below: an absent
 * key gives the default (or null where there is none) and an explicit JSON null gives null;
 * a JSON number read as `int` keeps its low 32 bits; `getString` gives the text of a number or
 * a boolean; the other typed getters raise a `ClassCastException` on a value of another type.
 */
module ConfigParsing {
  import opened Util
  import opened Strings
  import opened DataUrls
  import DataSources
  import FsCache

  datatype Json =
    | JNull
    | JBool(b: bool)
    | JInt(i: int)
    | JString(s: string)
    | JArray(elems: seq<Json>)
    | JObject(fields: map<string, Json>)

  type JsonObject = map<string, Json>

  /** `InvalidConfigurationException` with its message, and the runtime exceptions that escape the parser. */
  datatype ConfigError =
    | InvalidConfiguration(message: string)
    | NullPointer
    | ClassCast
    | NumberFormat
    | IndexOutOfBounds

  const DEFAULT_PORT: Int32 := 80
  const DEFAULT_TILE_MIN_ZOOM: Int32 := 0
  const DEFAULT_TILE_MAX_ZOOM: Int32 := 20
  const DEFAULT_CACHE_MAX_AGE: string := "48h"
  const DEFAULT_CACHE_MAX_ELEMENTS: Int32 := 500_000

  const TILES_NOT_ARRAY := "'tiles' must be an array of tile source configurations."
  const NO_TILES := "At least one tile source configuration must be provided with the 'tiles' configuration array."
  const TILE_NAME_MISSING := "'name' configuration parameter is missing from tile source configuration."
  const SOURCES_NOT_ARRAY := "'sources' must be an array of tile source urls."
  const NO_SOURCES := "At least one tile source url must be provided with the 'tiles.sources' configuration array."
  const CACHES_NOT_ARRAY := "'caches' must be an array of cache configurations."
  const CACHE_NAME_MISSING := "'name' configuration parameter is missing from cache configuration."
  const MAX_ELEMENTS_NOT_INT := "'caches.maxElements' configuration parameter must be an integer."
  const DIRECTORY_MISSING := "'directory' configuration parameter is missing from cache configuration."

  function DuplicateTile(name: string): string { "Duplicate tile sources named '" + name + "' found." }
  function DuplicateCache(name: string): string { "Duplicate cache named '" + name + "' found." }
  function BadDuration(duration: string): string { "Unable to parse duration '" + duration + "'." }

  // ---------------------------------------------------------------------------
  // parseDuration
  // ---------------------------------------------------------------------------

  /** Seconds per unit for the suffixes `s`, `m`, `h` and `d`. */
  function UnitSeconds(c: char): (r: Option<int>)
    ensures r.Some? <==> c in {'s', 'm', 'h', 'd'}
  {
    match c
    case 's' => Some(1)
    case 'm' => Some(60)
    case 'h' => Some(3600)
    case 'd' => Some(86400)
    case _ => None
  }

  /**
   * The text `parseDuration` hands to `Integer.parseInt`: the whole string when it ends in a
   * digit, otherwise the trimmed text before the unit character.
   */
  function NumericPart(duration: string): string
    requires duration != ""
  {
    if IsDigit(duration[|duration| - 1]) then duration else Trim(duration[..|duration| - 1])
  }

  /** The seconds one unit of a duration ending in `c` stands for, hours when `c` is a digit. */
  function Scale(c: char): Option<int> {
    if IsDigit(c) then Some(3600) else UnitSeconds(c)
  }

  /**
   * `parseDuration`, with the `Duration` given in seconds: a string ending in a digit is a
   * whole number of hours; otherwise the text before the last character is trimmed and
   * parsed, and the last character picks the unit. The empty string fails on `charAt(-1)`.
   */
  function ParseDuration(duration: string): (r: Result<int, ConfigError>)
    ensures duration == "" ==> r == Failure(ConfigError.IndexOutOfBounds)
    ensures r.Success? ==> duration != "" && (IsDigit(duration[|duration| - 1]) || UnitSeconds(duration[|duration| - 1]).Some?)
    ensures duration != "" && ParseInt(NumericPart(duration)).None? ==> r == Failure(NumberFormat)
    ensures r.Success? ==>
      && ParseInt(NumericPart(duration)).Some? && Scale(duration[|duration| - 1]).Some?
      && r.value == ParseInt(NumericPart(duration)).value * Scale(duration[|duration| - 1]).value
  {
    if duration == "" then Failure(ConfigError.IndexOutOfBounds)
    else
      var c := duration[|duration| - 1];
      if IsDigit(c) then
        match ParseInt(duration)
        case None => Failure(NumberFormat)
        case Some(hours) => Success(hours * 3600)
      else
        match ParseInt(Trim(duration[..|duration| - 1]))
        case None => Failure(NumberFormat)
        case Some(value) =>
          match UnitSeconds(c)
          case Some(unit) => Success(value * unit)
          case None => Failure(InvalidConfiguration(BadDuration(duration)))
  }

  /** A bare integer is a number of hours. */
  lemma ParseDurationHours(n: Int32)
    ensures ParseDuration(Dec(n)) == Success(n * 3600)
  {
    var d := Dec(n);
    assert IsDigit(d[|d| - 1]);
    ParseIntDec(n);
  }

  /** A unit suffix scales the trimmed number before it. */
  lemma ParseDurationUnit(before: string, n: Int32, after: string, c: char)
    requires Blank(before) && Blank(after) && UnitSeconds(c).Some?
    ensures ParseDuration(before + Dec(n) + after + [c]) == Success(n * UnitSeconds(c).value)
  {
    var d := before + Dec(n) + after + [c];
    assert d[..|d| - 1] == before + Dec(n) + after;
    ParseIntPadded(before, n, after);
  }

  /** A final character that is neither a digit nor a unit fails once the number before it parses. */
  lemma ParseDurationBadUnit(n: Int32, c: char)
    requires !IsDigit(c) && UnitSeconds(c).None?
    ensures ParseDuration(Dec(n) + [c]) == Failure(InvalidConfiguration(BadDuration(Dec(n) + [c])))
  {
    var d := Dec(n) + [c];
    assert d[..|d| - 1] == [] + Dec(n) + [];
    ParseIntPadded([], n, []);
  }

  /**
   * A numeric part holding anything but digits after an optional sign (`1.5`, `1.5h`, `abch`)
   * fails as `Integer.parseInt` does, whatever the last character.
   */
  lemma ParseDurationNotANumber(duration: string, i: nat)
    requires duration != "" && i < |NumericPart(duration)|
    requires !IsDigit(NumericPart(duration)[i])
    requires i == 0 ==> NumericPart(duration)[0] != '-' && NumericPart(duration)[0] != '+'
    ensures ParseDuration(duration) == Failure(NumberFormat)
  {
    ParseIntNonDigit(NumericPart(duration), i);
  }

  /** A fractional number of hours and a fractional number with a unit both fail. */
  lemma ParseDurationFraction()
    ensures ParseDuration("1.5") == Failure(NumberFormat)
    ensures ParseDuration("1.5h") == Failure(NumberFormat)
  {
    ParseDurationNotANumber("1.5", 1);
    assert "1.5h"[..3] == "1.5";
    assert "1.5" == [] + "1.5" + [];
    TrimPadded([], "1.5", []);
    ParseDurationNotANumber("1.5h", 1);
  }

  /** The default maximum age `48h` is 48 hours. */
  lemma DefaultMaxAge()
    ensures ParseDuration(DEFAULT_CACHE_MAX_AGE) == Success(48 * 3600)
  {
    assert Dec(48) == "48";
    assert DEFAULT_CACHE_MAX_AGE == [] + Dec(48) + [] + ['h'];
    ParseDurationUnit([], 48, [], 'h');
  }

  // ---------------------------------------------------------------------------
  // JSON accessors (the assumed library behaviour)
  // ---------------------------------------------------------------------------

  /** `getInteger(key, def)` unboxed into an `int`: a JSON null fails the unboxing. */
  function GetInt(o: JsonObject, key: string, def: Int32): Result<Int32, ConfigError> {
    if key !in o then Success(def)
    else match o[key]
      case JInt(n) => Success(Wrap32(n))
      case JNull => Failure(NullPointer)
      case _ => Failure(ClassCast)
  }

  /**
   * `getString(key)`: absent or null give null; a number or a boolean gives its text
   * (`toString()` of the boxed value), as Vert.x 4 does rather than casting.
   */
  function GetString(o: JsonObject, key: string): Result<Option<string>, ConfigError> {
    if key !in o then Success(None)
    else match o[key]
      case JString(s) => Success(Some(s))
      case JNull => Success(None)
      case JInt(n) => Success(Some(Dec(n)))
      case JBool(b) => Success(Some(if b then "true" else "false"))
      case _ => Failure(ClassCast)
  }

  /** `getString(key, def)`: only an absent key gives the default. */
  function GetStringOr(o: JsonObject, key: string, def: string): Result<Option<string>, ConfigError> {
    if key !in o then Success(Some(def)) else GetString(o, key)
  }

  /** `getJsonArray(key)`: absent or null give null. */
  function GetArray(o: JsonObject, key: string): Result<Option<seq<Json>>, ConfigError> {
    if key !in o then Success(None)
    else match o[key]
      case JArray(elems) => Success(Some(elems))
      case JNull => Success(None)
      case _ => Failure(ClassCast)
  }

  /** `getJsonObject(i)` followed by a call on the result: a null element fails that call. */
  function AsObject(element: Json): Result<JsonObject, ConfigError> {
    match element
    case JObject(fields) => Success(fields)
    case JNull => Failure(NullPointer)
    case _ => Failure(ClassCast)
  }

  // ---------------------------------------------------------------------------
  // The parsed configuration, as values
  // ---------------------------------------------------------------------------

  /** A tile source entry as parsed: its `TileSourceUrl`s are represented by their templates. */
  datatype TileEntry = TileEntry(name: string, cache: Option<string>, minZoom: Int32, maxZoom: Int32,
                                 templates: seq<string>)

  /** A cache entry as parsed; `maxAge` (in seconds) and `maxElements` are validated but not kept. */
  datatype CacheEntry = CacheEntry(name: string, maxAge: int, maxElements: Int32, directory: string)

  datatype ConfigSpec = ConfigSpec(port: Int32, tileSources: map<string, TileEntry>,
                                   tileCaches: map<string, FsCache.FilesystemTileCache>)

  /**
   * The `sources` templates: every element must be a string. A non-string element fails the
   * cast and a null one fails inside `TileSourceUrl`; the parser reports both alike.
   */
  function SourceTemplates(sources: seq<Json>): (r: Option<seq<string>>)
    ensures r.Some? ==> |r.value| == |sources|
    ensures r.Some? <==> forall k | 0 <= k < |sources| :: sources[k].JString?
    ensures r.Some? ==> forall k | 0 <= k < |sources| :: r.value[k] == sources[k].s
  {
    if sources == [] then Some([])
    else if !sources[0].JString? then None
    else match SourceTemplates(sources[1..])
      case None => None
      case Some(rest) => Some([sources[0].s] + rest)
  }

  function Sources(o: JsonObject): Result<seq<string>, ConfigError> {
    match GetArray(o, "sources")
    case Failure(_) => Failure(InvalidConfiguration(SOURCES_NOT_ARRAY))
    case Success(None) => Success([])
    case Success(Some(elems)) =>
      match SourceTemplates(elems)
      case None => Failure(InvalidConfiguration(SOURCES_NOT_ARRAY))
      case Some(templates) => Success(templates)
  }

  /** One iteration of the tile loop, given the names already taken. */
  function ParseTile(element: Json, taken: set<string>): (r: Result<TileEntry, ConfigError>)
    ensures r.Success? ==> r.value.name !in taken && r.value.templates != []
  {
    var o :- AsObject(element);
    var name :- GetString(o, "name");
    if name.None? then Failure(InvalidConfiguration(TILE_NAME_MISSING))
    else if name.value in taken then Failure(InvalidConfiguration(DuplicateTile(name.value)))
    else
      var templates :- Sources(o);
      if templates == [] then Failure(InvalidConfiguration(NO_SOURCES))
      else
        var cache :- GetString(o, "cache");
        var minZoom :- GetInt(o, "minZoom", DEFAULT_TILE_MIN_ZOOM);
        var maxZoom :- GetInt(o, "maxZoom", DEFAULT_TILE_MAX_ZOOM);
        Success(TileEntry(name.value, cache, minZoom, maxZoom, templates))
  }

  /**
   * What a tile entry is read from: every field of the result is the value of its key, a
   * missing or null name is refused first, and a name already taken is refused next.
   */
  lemma ParseTileFields(element: Json, taken: set<string>)
    ensures var r := ParseTile(element, taken);
      r.Success? ==>
      && element.JObject?
      && GetString(element.fields, "name") == Success(Some(r.value.name))
      && Sources(element.fields) == Success(r.value.templates)
      && GetString(element.fields, "cache") == Success(r.value.cache)
      && GetInt(element.fields, "minZoom", DEFAULT_TILE_MIN_ZOOM) == Success(r.value.minZoom)
      && GetInt(element.fields, "maxZoom", DEFAULT_TILE_MAX_ZOOM) == Success(r.value.maxZoom)
    ensures element.JObject? && GetString(element.fields, "name") == Success(None) ==>
      ParseTile(element, taken) == Failure(InvalidConfiguration(TILE_NAME_MISSING))
    ensures forall n :: element.JObject? && GetString(element.fields, "name") == Success(Some(n)) && n in taken ==>
      ParseTile(element, taken) == Failure(InvalidConfiguration(DuplicateTile(n)))
  {
  }

  /** The tile loop from index `i` on, with the sources put so far. */
  function ParseTilesFrom(elements: seq<Json>, i: nat, acc: map<string, TileEntry>): Result<map<string, TileEntry>, ConfigError>
    requires i <= |elements|
    decreases |elements| - i
  {
    if i == |elements| then Success(acc)
    else
      var entry :- ParseTile(elements[i], acc.Keys);
      ParseTilesFrom(elements, i + 1, acc[entry.name := entry])
  }

  /** One iteration of the cache loop. */
  function ParseCache(element: Json, taken: set<string>): (r: Result<CacheEntry, ConfigError>)
    ensures r.Success? ==> r.value.name !in taken
  {
    var o :- AsObject(element);
    var name :- GetString(o, "name");
    if name.None? then Failure(InvalidConfiguration(CACHE_NAME_MISSING))
    else if name.value in taken then Failure(InvalidConfiguration(DuplicateCache(name.value)))
    else
      var maxAgeText :- GetStringOr(o, "maxAge", DEFAULT_CACHE_MAX_AGE);
      var maxAge :- if maxAgeText.None? then Failure(NullPointer) else ParseDuration(maxAgeText.value);
      var maxElements :- match GetInt(o, "maxElements", DEFAULT_CACHE_MAX_ELEMENTS)
        case Success(v) => Success(v)
        case Failure(_) => Failure(InvalidConfiguration(MAX_ELEMENTS_NOT_INT));
      var directory :- GetString(o, "directory");
      if directory.None? then Failure(InvalidConfiguration(DIRECTORY_MISSING))
      else Success(CacheEntry(name.value, maxAge, maxElements, directory.value))
  }

  /**
   * What a cache entry is read from: name, directory, maximum size and maximum age are the
   * values of their keys (the age through `ParseDuration`), a missing or null name is refused
   * first, and a name already taken is refused next.
   */
  lemma ParseCacheFields(element: Json, taken: set<string>)
    ensures var r := ParseCache(element, taken);
      r.Success? ==>
      && element.JObject?
      && GetString(element.fields, "name") == Success(Some(r.value.name))
      && GetString(element.fields, "directory") == Success(Some(r.value.directory))
      && GetInt(element.fields, "maxElements", DEFAULT_CACHE_MAX_ELEMENTS) == Success(r.value.maxElements)
      && var age := GetStringOr(element.fields, "maxAge", DEFAULT_CACHE_MAX_AGE);
         age.Success? && age.value.Some? && ParseDuration(age.value.value) == Success(r.value.maxAge)
    ensures element.JObject? && GetString(element.fields, "name") == Success(None) ==>
      ParseCache(element, taken) == Failure(InvalidConfiguration(CACHE_NAME_MISSING))
    ensures forall n :: element.JObject? && GetString(element.fields, "name") == Success(Some(n)) && n in taken ==>
      ParseCache(element, taken) == Failure(InvalidConfiguration(DuplicateCache(n)))
  {
    if element.JObject? {
      var o := element.fields;
      var name := GetString(o, "name");
      if name.Success? && name.value.Some? && name.value.value !in taken {
        var age := GetStringOr(o, "maxAge", DEFAULT_CACHE_MAX_AGE);
        if age.Success? && age.value.Some? {
          var maxAge := ParseDuration(age.value.value);
          var size := GetInt(o, "maxElements", DEFAULT_CACHE_MAX_ELEMENTS);
          var directory := GetString(o, "directory");
          if maxAge.Success? && size.Success? && directory.Success? && directory.value.Some? {
            assert ParseCache(element, taken)
                == Success(CacheEntry(name.value.value, maxAge.value, size.value, directory.value.value));
          }
        }
      }
    }
  }

  function ParseCachesFrom(elements: seq<Json>, i: nat, acc: map<string, FsCache.FilesystemTileCache>, sep: char)
    : Result<map<string, FsCache.FilesystemTileCache>, ConfigError>
    requires i <= |elements|
    decreases |elements| - i
  {
    if i == |elements| then Success(acc)
    else
      var entry :- ParseCache(elements[i], acc.Keys);
      ParseCachesFrom(elements, i + 1, acc[entry.name := FsCache.FilesystemTileCache(entry.directory, sep)], sep)
  }

  /** The `tiles` array: anything but an array fails, and a missing or empty one is refused. */
  function TilesArray(raw: JsonObject): Result<seq<Json>, ConfigError> {
    match GetArray(raw, "tiles")
    case Failure(_) => Failure(InvalidConfiguration(TILES_NOT_ARRAY))
    case Success(None) => Failure(InvalidConfiguration(NO_TILES))
    case Success(Some(elems)) => if elems == [] then Failure(InvalidConfiguration(NO_TILES)) else Success(elems)
  }

  /** The `caches` array: anything but an array fails, and a missing one counts as empty. */
  function CachesArray(raw: JsonObject): Result<seq<Json>, ConfigError> {
    match GetArray(raw, "caches")
    case Failure(_) => Failure(InvalidConfiguration(CACHES_NOT_ARRAY))
    case Success(None) => Success([])
    case Success(Some(elems)) => Success(elems)
  }

  /** `parseConfig` as a function of the raw configuration and the platform file separator. */
  function ParseConfigSpec(raw: JsonObject, sep: char): Result<ConfigSpec, ConfigError> {
    var port :- GetInt(raw, "port", DEFAULT_PORT);
    var tiles :- TilesArray(raw);
    var tileSources :- ParseTilesFrom(tiles, 0, map[]);
    var caches :- CachesArray(raw);
    var tileCaches :- ParseCachesFrom(caches, 0, map[], sep);
    Success(ConfigSpec(port, tileSources, tileCaches))
  }

  // ---------------------------------------------------------------------------
  // parseConfig
  // ---------------------------------------------------------------------------

  /** The source's `Config`: the port, the tile sources by name and the caches by name. */
  datatype Config = Config(port: Int32, tileSources: map<string, DataSources.TileSource>,
                           tileCaches: map<string, FsCache.FilesystemTileCache>)

  ghost function TemplatesOf(urls: seq<TileSourceUrl>): seq<string> {
    seq(|urls|, k requires 0 <= k < |urls| => urls[k].template)
  }

  ghost function ViewSource(t: DataSources.TileSource): TileEntry {
    TileEntry(t.name, t.cache, t.minZoom, t.maxZoom, TemplatesOf(t.urls))
  }

  ghost function ViewSources(m: map<string, DataSources.TileSource>): map<string, TileEntry> {
    map k | k in m :: ViewSource(m[k])
  }

  ghost function View(c: Config): ConfigSpec {
    ConfigSpec(c.port, ViewSources(c.tileSources), c.tileCaches)
  }

  ghost predicate UrlsValid(m: map<string, DataSources.TileSource>)
    reads set k, u | k in m && u in m[k].urls :: u.urlParts
  {
    forall k, u | k in m && u in m[k].urls :: u.Valid()
  }

  /** The stream mapping each template to a new `TileSourceUrl`. */
  method NewUrls(templates: seq<string>) returns (urls: seq<TileSourceUrl>)
    ensures TemplatesOf(urls) == templates
    ensures forall u | u in urls :: u.Valid() && fresh(u) && fresh(u.urlParts)
  {
    urls := [];
    for i := 0 to |templates|
      invariant TemplatesOf(urls) == templates[..i]
      invariant forall u | u in urls :: u.Valid() && fresh(u) && fresh(u.urlParts)
    {
      var url := new TileSourceUrl(templates[i]);
      urls := urls + [url];
    }
  }

  /**
   * Validates the configuration entry by entry, putting each tile source and each cache into
   * the config's maps, and stops at the first error.
   */
  method ParseConfig(raw: JsonObject, sep: char) returns (r: Result<Config, ConfigError>)
    ensures r.Failure? ==> ParseConfigSpec(raw, sep) == Failure(r.error)
    ensures r.Success? ==> ParseConfigSpec(raw, sep) == Success(View(r.value))
    ensures r.Success? ==> UrlsValid(r.value.tileSources)
    ensures r.Success? ==> forall k, u | k in r.value.tileSources && u in r.value.tileSources[k].urls :: fresh(u)
  {
    var port :- GetInt(raw, "port", DEFAULT_PORT);
    var tiles :- TilesArray(raw);

    var tileSources: map<string, DataSources.TileSource> := map[];
    for i := 0 to |tiles|
      invariant ParseTilesFrom(tiles, 0, map[]) == ParseTilesFrom(tiles, i, ViewSources(tileSources))
      invariant UrlsValid(tileSources)
      invariant forall k, u | k in tileSources && u in tileSources[k].urls :: fresh(u)
    {
      assert ViewSources(tileSources).Keys == tileSources.Keys;
      var entry :- ParseTile(tiles[i], tileSources.Keys);
      var urls := NewUrls(entry.templates);
      var source := DataSources.TileSource(entry.name, entry.cache, entry.minZoom, entry.maxZoom, urls);
      assert ViewSources(tileSources[entry.name := source]) == ViewSources(tileSources)[entry.name := entry];
      tileSources := tileSources[entry.name := source];
    }

    var caches :- CachesArray(raw);
    var tileCaches: map<string, FsCache.FilesystemTileCache> := map[];
    for i := 0 to |caches|
      invariant ParseCachesFrom(caches, 0, map[], sep) == ParseCachesFrom(caches, i, tileCaches, sep)
      invariant UrlsValid(tileSources)
      invariant forall k, u | k in tileSources && u in tileSources[k].urls :: fresh(u)
    {
      var entry :- ParseCache(caches[i], tileCaches.Keys);
      tileCaches := tileCaches[entry.name := FsCache.FilesystemTileCache(entry.directory, sep)];
    }

    r := Success(Config(port, tileSources, tileCaches));
  }

  // ---------------------------------------------------------------------------
  // Properties of the parse
  // ---------------------------------------------------------------------------

  /** Every tile source sits under its own name and has at least one template. */
  predicate KeyedByName(m: map<string, TileEntry>) {
    forall k | k in m :: m[k].name == k && m[k].templates != []
  }

  /** What an entry parses to on its own, whatever the other entries are named. */
  function TileOf(element: Json): Result<TileEntry, ConfigError> {
    ParseTile(element, {})
  }

  function CacheOf(element: Json): Result<CacheEntry, ConfigError> {
    ParseCache(element, {})
  }

  lemma ParseTileTaken(element: Json, taken: set<string>)
    requires ParseTile(element, taken).Success?
    ensures ParseTile(element, taken) == TileOf(element)
  {
  }

  lemma ParseCacheTaken(element: Json, taken: set<string>)
    requires ParseCache(element, taken).Success?
    ensures ParseCache(element, taken) == CacheOf(element)
  {
  }

  /**
   * A successful tile loop puts every entry under its own name, keeps what was there,
   * and sees each name once, so the map grows by exactly the number of entries.
   */
  lemma {:induction false} ParseTilesFromShape(elements: seq<Json>, i: nat, acc: map<string, TileEntry>)
    requires i <= |elements| && KeyedByName(acc)
    requires ParseTilesFrom(elements, i, acc).Success?
    decreases |elements| - i
    ensures var m := ParseTilesFrom(elements, i, acc).value;
      && KeyedByName(m)
      && |m| == |acc| + (|elements| - i)
      && (forall k | k in acc :: k in m && m[k] == acc[k])
      && (forall j | i <= j < |elements| ::
            TileOf(elements[j]).Success? && TileOf(elements[j]).value.name !in acc
            && TileOf(elements[j]).value.name in m && m[TileOf(elements[j]).value.name] == TileOf(elements[j]).value)
      && (forall j, j' | i <= j < j' < |elements| :: TileOf(elements[j]).value.name != TileOf(elements[j']).value.name)
  {
    if i < |elements| {
      var t := ParseTile(elements[i], acc.Keys).value;
      ParseTileTaken(elements[i], acc.Keys);
      var acc' := acc[t.name := t];
      assert ParseTilesFrom(elements, i, acc) == ParseTilesFrom(elements, i + 1, acc');
      assert |acc'| == |acc| + 1;
      ParseTilesFromShape(elements, i + 1, acc');
      forall j, j' | i <= j < j' < |elements|
        ensures TileOf(elements[j]).value.name != TileOf(elements[j']).value.name
      {
        if j == i {
          assert TileOf(elements[j']).value.name !in acc';
        }
      }
    }
  }

  lemma {:induction false} ParseCachesFromShape(elements: seq<Json>, i: nat, acc: map<string, FsCache.FilesystemTileCache>, sep: char)
    requires i <= |elements|
    requires ParseCachesFrom(elements, i, acc, sep).Success?
    decreases |elements| - i
    ensures var m := ParseCachesFrom(elements, i, acc, sep).value;
      && |m| == |acc| + (|elements| - i)
      && (forall k | k in acc :: k in m && m[k] == acc[k])
      && (forall j | i <= j < |elements| ::
            CacheOf(elements[j]).Success? && CacheOf(elements[j]).value.name !in acc
            && CacheOf(elements[j]).value.name in m
            && m[CacheOf(elements[j]).value.name] == FsCache.FilesystemTileCache(CacheOf(elements[j]).value.directory, sep))
      && (forall j, j' | i <= j < j' < |elements| :: CacheOf(elements[j]).value.name != CacheOf(elements[j']).value.name)
  {
    if i < |elements| {
      var c := ParseCache(elements[i], acc.Keys).value;
      ParseCacheTaken(elements[i], acc.Keys);
      var acc' := acc[c.name := FsCache.FilesystemTileCache(c.directory, sep)];
      assert ParseCachesFrom(elements, i, acc, sep) == ParseCachesFrom(elements, i + 1, acc', sep);
      assert |acc'| == |acc| + 1;
      ParseCachesFromShape(elements, i + 1, acc', sep);
      forall j, j' | i <= j < j' < |elements|
        ensures CacheOf(elements[j]).value.name != CacheOf(elements[j']).value.name
      {
        if j == i {
          assert CacheOf(elements[j']).value.name !in acc';
        }
      }
    }
  }

  /**
   * A successful parse has one tile source per entry of the non-empty `tiles` array, each
   * under its own distinct name and built from its own entry, and one cache per entry of
   * `caches` (none when the array is absent); an absent `port` is 80.
   */
  lemma ParsedConfig(raw: JsonObject, sep: char)
    requires ParseConfigSpec(raw, sep).Success?
    ensures var c := ParseConfigSpec(raw, sep).value;
      && "tiles" in raw && raw["tiles"].JArray?
      && |c.tileSources| == |raw["tiles"].elems| >= 1
      && KeyedByName(c.tileSources)
      && (forall j | 0 <= j < |raw["tiles"].elems| ::
            TileOf(raw["tiles"].elems[j]).Success? && TileOf(raw["tiles"].elems[j]).value.name in c.tileSources
            && c.tileSources[TileOf(raw["tiles"].elems[j]).value.name] == TileOf(raw["tiles"].elems[j]).value)
      && ("port" !in raw ==> c.port == DEFAULT_PORT)
      && (("caches" !in raw || raw["caches"] == JNull) ==> c.tileCaches == map[])
      && ("caches" in raw && raw["caches"].JArray? ==> |c.tileCaches| == |raw["caches"].elems|)
  {
    var tiles := TilesArray(raw).value;
    ParseTilesFromShape(tiles, 0, map[]);
    var caches := CachesArray(raw).value;
    ParseCachesFromShape(caches, 0, map[], sep);
  }

  /** Two tile entries with the same name make the whole parse fail. */
  lemma DuplicateTileNames(raw: JsonObject, sep: char, j: nat, j': nat)
    requires "tiles" in raw && raw["tiles"].JArray? && j < j' < |raw["tiles"].elems|
    requires TileOf(raw["tiles"].elems[j]).Success? && TileOf(raw["tiles"].elems[j']).Success?
    requires TileOf(raw["tiles"].elems[j]).value.name == TileOf(raw["tiles"].elems[j']).value.name
    ensures ParseConfigSpec(raw, sep).Failure?
  {
    if ParseConfigSpec(raw, sep).Success? {
      ParseTilesFromShape(raw["tiles"].elems, 0, map[]);
    }
  }

  /** Two cache entries with the same name make the whole parse fail. */
  lemma DuplicateCacheNames(raw: JsonObject, sep: char, j: nat, j': nat)
    requires "caches" in raw && raw["caches"].JArray? && j < j' < |raw["caches"].elems|
    requires CacheOf(raw["caches"].elems[j]).Success? && CacheOf(raw["caches"].elems[j']).Success?
    requires CacheOf(raw["caches"].elems[j]).value.name == CacheOf(raw["caches"].elems[j']).value.name
    ensures ParseConfigSpec(raw, sep).Failure?
  {
    if ParseConfigSpec(raw, sep).Success? {
      ParseCachesFromShape(raw["caches"].elems, 0, map[], sep);
    }
  }

  function JStrings(ss: seq<string>): (r: seq<Json>)
    ensures |r| == |ss| && forall k | 0 <= k < |ss| :: r[k] == JString(ss[k])
  {
    seq(|ss|, k requires 0 <= k < |ss| => JString(ss[k]))
  }

  /** A tile entry with only a name and its templates gets no cache and the zoom range 0 to 20. */
  lemma MinimalTile(name: string, templates: seq<string>)
    requires templates != []
    ensures TileOf(JObject(map["name" := JString(name), "sources" := JArray(JStrings(templates))]))
         == Success(TileEntry(name, None, DEFAULT_TILE_MIN_ZOOM, DEFAULT_TILE_MAX_ZOOM, templates))
  {
    var t := SourceTemplates(JStrings(templates));
    assert t.Some? && t.value == templates;
  }

  /** A cache entry with only a name and a directory gets the maximum age of 48 hours and 500000 elements. */
  lemma MinimalCache(name: string, directory: string)
    ensures CacheOf(JObject(map["name" := JString(name), "directory" := JString(directory)]))
         == Success(CacheEntry(name, 48 * 3600, DEFAULT_CACHE_MAX_ELEMENTS, directory))
  {
    var o := map["name" := JString(name), "directory" := JString(directory)];
    assert GetString(o, "name") == Success(Some(name));
    assert GetStringOr(o, "maxAge", DEFAULT_CACHE_MAX_AGE) == Success(Some(DEFAULT_CACHE_MAX_AGE));
    assert GetInt(o, "maxElements", DEFAULT_CACHE_MAX_ELEMENTS) == Success(DEFAULT_CACHE_MAX_ELEMENTS);
    assert GetString(o, "directory") == Success(Some(directory));
    DefaultMaxAge();
  }

  /**
   * A cache entry without a directory (absent or null) is refused: with the directory error
   * when its name, maximum age and maximum size are acceptable, and with an earlier error
   * otherwise.
   */
  lemma CacheWithoutDirectory(fields: JsonObject)
    requires "directory" !in fields || fields["directory"] == JNull
    ensures CacheOf(JObject(fields)).Failure?
    ensures
      (&& GetString(fields, "name").Success? && GetString(fields, "name").value.Some?
       && GetInt(fields, "maxElements", DEFAULT_CACHE_MAX_ELEMENTS).Success?
       && var age := GetStringOr(fields, "maxAge", DEFAULT_CACHE_MAX_AGE);
          age.Success? && age.value.Some? && ParseDuration(age.value.value).Success?)
      ==> CacheOf(JObject(fields)) == Failure(InvalidConfiguration(DIRECTORY_MISSING))
  {
    assert GetString(fields, "directory") == Success(None);
  }

  /** A `tiles` array of one valid entry yields that entry under its name. */
  lemma SingleTile(element: Json, e: TileEntry)
    requires TileOf(element) == Success(e)
    ensures ParseTilesFrom([element], 0, map[]) == Success(map[e.name := e])
  {
    var empty: map<string, TileEntry> := map[];
    assert empty.Keys == {};
    assert ParseTile(element, empty.Keys) == Success(e);
    assert ParseTilesFrom([element], 0, empty) == ParseTilesFrom([element], 1, empty[e.name := e]);
  }

  /** A `caches` array of one valid entry yields a cache on that directory under its name. */
  lemma SingleCache(element: Json, e: CacheEntry, sep: char)
    requires CacheOf(element) == Success(e)
    ensures ParseCachesFrom([element], 0, map[], sep) == Success(map[e.name := FsCache.FilesystemTileCache(e.directory, sep)])
  {
    var empty: map<string, FsCache.FilesystemTileCache> := map[];
    assert empty.Keys == {};
    assert ParseCache(element, empty.Keys) == Success(e);
    assert ParseCachesFrom([element], 0, empty, sep)
        == ParseCachesFrom([element], 1, empty[e.name := FsCache.FilesystemTileCache(e.directory, sep)], sep);
  }

  /** A small configuration: one tile source with any template and one cache in any directory, everything else defaulted. */
  lemma ExampleConfig(template: string, directory: string)
    ensures var raw := map[
        "tiles" := JArray([JObject(map["name" := JString("osm"), "sources" := JArray([JString(template)])])]),
        "caches" := JArray([JObject(map["name" := JString("disk"), "directory" := JString(directory)])])];
      ParseConfigSpec(raw, '/') == Success(ConfigSpec(80,
        map["osm" := TileEntry("osm", None, 0, 20, [template])],
        map["disk" := FsCache.FilesystemTileCache(directory, '/')]))
  {
    var tile := JObject(map["name" := JString("osm"), "sources" := JArray([JString(template)])]);
    var cache := JObject(map["name" := JString("disk"), "directory" := JString(directory)]);
    assert ParseTilesFrom([tile], 0, map[]) == Success(map["osm" := TileEntry("osm", None, 0, 20, [template])]) by {
      assert JStrings([template]) == [JString(template)];
      MinimalTile("osm", [template]);
      SingleTile(tile, TileEntry("osm", None, 0, 20, [template]));
    }
    assert ParseCachesFrom([cache], 0, map[], '/') == Success(map["disk" := FsCache.FilesystemTileCache(directory, '/')]) by {
      MinimalCache("disk", directory);
      SingleCache(cache, CacheEntry("disk", 48 * 3600, DEFAULT_CACHE_MAX_ELEMENTS, directory), '/');
    }
    var raw := map["tiles" := JArray([tile]), "caches" := JArray([cache])];
    assert GetInt(raw, "port", DEFAULT_PORT) == Success(80);
    assert TilesArray(raw) == Success([tile]);
    assert CachesArray(raw) == Success([cache]);
  }

}

=== FILE: config_tile_source.dfy ===
/**
 * `config/TileSource`: the older single-template tile source. It repeats the template
 * algorithm of `data/TileSourceUrl` on its own `urlParts` array.
 */
module ConfigSources {
  import opened Util
  import opened Strings
  import opened Templates

  class TileSource {
    /** Exposed by a generated getter; never reassigned. */
    const name: string
    ghost const template: string
    const urlParts: array<string>

    ghost predicate Valid()
      reads urlParts
    {
      urlParts[..] == TemplateParts(template)
    }

    constructor (name: string, url: string)
      ensures this.name == name && template == url && Valid() && fresh(urlParts)
    {
      var raw := Split(url, Braces);
      var parts := new string[|raw|](k requires 0 <= k < |raw| => raw[k]);
      for i := 0 to parts.Length
        invariant forall k | 0 <= k < i :: parts[k] == Normalize(raw[k])
        invariant forall k | i <= k < parts.Length :: parts[k] == raw[k]
      {
        if |parts[i]| == 1 {
          parts[i] := [LowerChar(parts[i][0])];
        }
      }
      this.name := name;
      template := url;
      urlParts := parts;
    }

    /** The same URL `DataUrls.TileSourceUrl.BuildUrl` builds from the same template. */
    method BuildUrl(z: Int32, x: Int32, y: Int32) returns (url: string)
      requires Valid()
      ensures url == TemplateUrl(template, z, x, y)
    {
      url := "";
      for i := 0 to urlParts.Length
        invariant url == Concat(Resolved(urlParts[..i], z, x, y))
      {
        var part := urlParts[i];
        ResolvedStep(urlParts[..], i, z, x, y);
        assert urlParts[..][..i] == urlParts[..i] && urlParts[..][..i + 1] == urlParts[..i + 1];
        if part == "z" {
          url := url + Dec(z);
        } else if part == "x" {
          url := url + Dec(x);
        } else if part == "y" {
          url := url + Dec(y);
        } else {
          url := url + part;
        }
      }
      assert urlParts[..urlParts.Length] == urlParts[..];
    }
  }
}

=== FILE: data_tile_source.dfy ===
/** `data/TileSource`: a named tile layer with its zoom range, optional cache name and URL templates. */
module DataSources {
  import opened Util
  import opened Templates
  import opened DataUrls

  /** All fields are final; the generated getters are the field selectors. `cache` may be absent (null). */
  datatype TileSource = TileSource(name: string, cache: Option<string>, minZoom: Int32, maxZoom: Int32,
                                   urls: seq<TileSourceUrl>)
  {
    /**
     * Resolves a tile against the template at index `pick`, the source's
     * `(int) (Math.random() * urls.size())`: below the list length, and 0 for an empty list,
     * for which the `get` fails.
     */
    method BuildUrl(pick: nat, z: Int32, x: Int32, y: Int32) returns (r: Result<string, IndexError>)
      requires |urls| == 0 ==> pick == 0
      requires |urls| > 0 ==> pick < |urls|
      requires forall u <- urls :: u.Valid()
      ensures r.Failure? <==> |urls| == 0
      ensures r.Success? ==> r.value == TemplateUrl(urls[pick].template, z, x, y)
      ensures |urls| == 1 ==> r == Success(TemplateUrl(urls[0].template, z, x, y))
    {
      if pick < |urls| {
        var url := urls[pick].BuildUrl(z, x, y);
        r := Success(url);
      } else {
        r := Failure(IndexOutOfBounds);
      }
    }
  }
}

=== FILE: data_tile_source_url.dfy ===
/** `data/TileSourceUrl`: one upstream URL template, stored as its parts. */
module DataUrls {
  import opened Util
  import opened Strings
  import opened Templates

  class TileSourceUrl {
    /** The template this object was built from (the source keeps only the parts). */
    ghost const template: string
    const urlParts: array<string>

    ghost predicate Valid()
      reads urlParts
    {
      urlParts[..] == TemplateParts(template)
    }

    /** Splits `url` at every brace, then lower-cases every one-character part in place. */
    constructor (url: string)
      ensures template == url && Valid() && fresh(urlParts)
    {
      var raw := Split(url, Braces);
      var parts := new string[|raw|](k requires 0 <= k < |raw| => raw[k]);
      for i := 0 to parts.Length
        invariant forall k | 0 <= k < i :: parts[k] == Normalize(raw[k])
        invariant forall k | i <= k < parts.Length :: parts[k] == raw[k]
      {
        if |parts[i]| == 1 {
          parts[i] := [LowerChar(parts[i][0])];
        }
      }
      template := url;
      urlParts := parts;
    }

    /** Appends, part by part, the coordinate for a `z`, `x` or `y` part and the part itself otherwise. */
    method BuildUrl(z: Int32, x: Int32, y: Int32) returns (url: string)
      requires Valid()
      ensures url == TemplateUrl(template, z, x, y)
    {
      url := "";
      for i := 0 to urlParts.Length
        invariant url == Concat(Resolved(urlParts[..i], z, x, y))
      {
        var part := urlParts[i];
        ResolvedStep(urlParts[..], i, z, x, y);
        assert urlParts[..][..i] == urlParts[..i] && urlParts[..][..i + 1] == urlParts[..i + 1];
        if part == "z" {
          url := url + Dec(z);
        } else if part == "x" {
          url := url + Dec(x);
        } else if part == "y" {
          url := url + Dec(y);
        } else {
          url := url + part;
        }
      }
      assert urlParts[..urlParts.Length] == urlParts[..];
    }
  }
}

=== FILE: duplicating_write_stream.dfy ===
/**
 * `util/DuplicatingWriteStream`: a write stream that forwards everything to two consumer
 * streams `a` and `b`. The consumers are represented by what they have been told; their own
 * I/O is reduced to the outcome of each write and end, and to whether their queue is full.
 * Vert.x runs all callbacks on one event loop, so the callbacks are methods called one at a time.
 */
module Streams {
  import opened Util

  /** What a consumer stream has received from the duplicating stream, and its queue state. */
  datatype Consumer<T> = Consumer(written: seq<T>, ended: bool, maxSize: Option<Int32>,
                                  exceptionHandler: Option<nat>, queueFull: bool)

  // ---------------------------------------------------------------------------
  // The drain protocol
  // ---------------------------------------------------------------------------

  /** A drain callback of consumer `a` or `b`. */
  datatype DrainEvent = ADrained | BDrained

  /** The two flags `aDrainHandlerCalled` and `bDrainHandlerCalled`. */
  datatype DrainState = DrainState(aDrained: bool, bDrained: bool)

  /** A callback sets its own side's flag. */
  function After(s: DrainState, e: DrainEvent): DrainState {
    match e
    case ADrained => s.(aDrained := true)
    case BDrained => s.(bDrained := true)
  }

  /** A callback calls the handler when the other side's flag is already set. */
  function Fires(s: DrainState, e: DrainEvent): bool {
    match e
    case ADrained => s.bDrained
    case BDrained => s.aDrained
  }

  /** The flags after the callbacks `events`, starting from the reset done at registration. */
  function Replay(events: seq<DrainEvent>): DrainState {
    if events == [] then DrainState(false, false)
    else After(Replay(events[..|events| - 1]), events[|events| - 1])
  }

  /** For each callback since registration, whether it called the handler. */
  function Firings(events: seq<DrainEvent>): (r: seq<bool>)
    ensures |r| == |events|
  {
    if events == [] then []
    else
      var front := events[..|events| - 1];
      Firings(front) + [Fires(Replay(front), events[|events| - 1])]
  }

  lemma FiringsSnoc(events: seq<DrainEvent>, e: DrainEvent)
    ensures Replay(events + [e]) == After(Replay(events), e)
    ensures Firings(events + [e]) == Firings(events) + [Fires(Replay(events), e)]
  {
    assert (events + [e])[..|events|] == events;
  }

  /** Each flag is set exactly when its side has drained since registration. */
  lemma {:induction false} ReplayFlags(events: seq<DrainEvent>)
    ensures Replay(events).aDrained <==> ADrained in events
    ensures Replay(events).bDrained <==> BDrained in events
  {
    if events != [] {
      var front := events[..|events| - 1];
      ReplayFlags(front);
      assert events == front + [events[|events| - 1]];
    }
  }

  lemma {:induction false} FiringsPrefix(events: seq<DrainEvent>, k: nat)
    requires k < |events|
    ensures Firings(events)[k] == Fires(Replay(events[..k]), events[k])
  {
    var front := events[..|events| - 1];
    if k < |events| - 1 {
      FiringsPrefix(front, k);
      assert front[..k] == events[..k];
    }
  }

  /**
   * The handler is called by the `k`-th callback since registration exactly when some earlier
   * callback since registration came from the other side.
   */
  lemma FiringsCharacterised(events: seq<DrainEvent>, k: nat)
    requires k < |events|
    ensures Firings(events)[k] <==> exists j | 0 <= j < k :: events[j] != events[k]
  {
    FiringsPrefix(events, k);
    ReplayFlags(events[..k]);
    if Firings(events)[k] {
      var other := if events[k] == ADrained then BDrained else ADrained;
      assert other in events[..k];
      var j :| 0 <= j < k && events[..k][j] == other;
      assert events[j] != events[k];
    }
  }

  /** One side draining, however often, never calls the handler. */
  lemma OneSideNeverFires(events: seq<DrainEvent>, e: DrainEvent)
    requires forall j | 0 <= j < |events| :: events[j] == e
    ensures forall k | 0 <= k < |events| :: !Firings(events)[k]
  {
    forall k | 0 <= k < |events| ensures !Firings(events)[k] {
      FiringsCharacterised(events, k);
    }
  }

  /** The flags are never cleared by a call: once both sides have drained, every later callback calls the handler. */
  lemma BothDrainedAlwaysFires(events: seq<DrainEvent>, i: nat, j: nat, k: nat)
    requires i < k && j < k && k < |events| && events[i] == ADrained && events[j] == BDrained
    ensures Firings(events)[k]
  {
    FiringsCharacterised(events, k);
  }

  // ---------------------------------------------------------------------------
  // The stream
  // ---------------------------------------------------------------------------

  class DuplicatingWriteStream<T> {
    var a: Consumer<T>
    var b: Consumer<T>
    var aDrainHandlerCalled: bool
    var bDrainHandlerCalled: bool
    /** The handler given to the last `drainHandler` call, which the callbacks on `a` and `b` call. */
    var handler: Option<nat>
    /** The calls of drain handlers made so far, in order. */
    var handled: seq<nat>
    /** The drain callbacks since the last registration. */
    ghost var drains: seq<DrainEvent>

    ghost predicate Valid()
      reads this
    {
      && DrainState(aDrainHandlerCalled, bDrainHandlerCalled) == Replay(drains)
      && (handler.None? ==> drains == [])
    }

    constructor (a: Consumer<T>, b: Consumer<T>)
      ensures Valid()
      ensures this.a == a && this.b == b && handler.None? && handled == []
    {
      this.a := a;
      this.b := b;
      aDrainHandlerCalled := false;
      bDrainHandlerCalled := false;
      handler := None;
      handled := [];
      drains := [];
    }

    /** Installs the same exception handler on both consumers. */
    method ExceptionHandler(h: nat)
      requires Valid()
      modifies this
      ensures Valid()
      ensures a == old(a.(exceptionHandler := Some(h))) && b == old(b.(exceptionHandler := Some(h)))
      ensures aDrainHandlerCalled == old(aDrainHandlerCalled) && bDrainHandlerCalled == old(bDrainHandlerCalled)
      ensures handler == old(handler) && handled == old(handled) && drains == old(drains)
    {
      a := a.(exceptionHandler := Some(h));
      b := b.(exceptionHandler := Some(h));
    }

    /**
     * Writes `data` to both consumers; `aOk` and `bOk` are the outcomes of their writes, and the
     * combined write succeeds only when both do.
     */
    method Write(data: T, aOk: bool, bOk: bool) returns (ok: bool)
      requires Valid()
      modifies this
      ensures Valid()
      ensures ok <==> aOk && bOk
      ensures a == old(a.(written := a.written + [data])) && b == old(b.(written := b.written + [data]))
      ensures aDrainHandlerCalled == old(aDrainHandlerCalled) && bDrainHandlerCalled == old(bDrainHandlerCalled)
      ensures handler == old(handler) && handled == old(handled) && drains == old(drains)
    {
      a := a.(written := a.written + [data]);
      b := b.(written := b.written + [data]);
      ok := aOk && bOk;
    }

    /** Ends both consumers; the combined end succeeds only when both do. */
    method End(aOk: bool, bOk: bool) returns (ok: bool)
      requires Valid()
      modifies this
      ensures Valid()
      ensures ok <==> aOk && bOk
      ensures a == old(a.(ended := true)) && b == old(b.(ended := true))
      ensures aDrainHandlerCalled == old(aDrainHandlerCalled) && bDrainHandlerCalled == old(bDrainHandlerCalled)
      ensures handler == old(handler) && handled == old(handled) && drains == old(drains)
    {
      a := a.(ended := true);
      b := b.(ended := true);
      ok := aOk && bOk;
    }

    /** Gives both consumers the same maximum queue size. */
    method SetWriteQueueMaxSize(maxSize: Int32)
      requires Valid()
      modifies this
      ensures Valid()
      ensures a == old(a.(maxSize := Some(maxSize))) && b == old(b.(maxSize := Some(maxSize)))
      ensures aDrainHandlerCalled == old(aDrainHandlerCalled) && bDrainHandlerCalled == old(bDrainHandlerCalled)
      ensures handler == old(handler) && handled == old(handled) && drains == old(drains)
    {
      a := a.(maxSize := Some(maxSize));
      b := b.(maxSize := Some(maxSize));
    }

    /**
     * The duplicating stream is full as soon as either consumer's queue is. That disjunction is
     * the whole of the promise, so the contract states it as it stands: a writer that waits for
     * `false` writes only while both consumers have room.
     */
    function WriteQueueFull(): (r: bool)
      reads this
      ensures r <==> a.queueFull || b.queueFull
    {
      a.queueFull || b.queueFull
    }

    /** The consumers' queues fill and empty with their own I/O. */
    method QueuesChanged(aFull: bool, bFull: bool)
      requires Valid()
      modifies this
      ensures Valid()
      ensures a == old(a.(queueFull := aFull)) && b == old(b.(queueFull := bFull))
      ensures aDrainHandlerCalled == old(aDrainHandlerCalled) && bDrainHandlerCalled == old(bDrainHandlerCalled)
      ensures handler == old(handler) && handled == old(handled) && drains == old(drains)
    {
      a := a.(queueFull := aFull);
      b := b.(queueFull := bFull);
    }

    /** Registers `h`: clears both flags and installs a callback on each consumer. */
    method DrainHandler(h: nat)
      requires Valid()
      modifies this
      ensures Valid()
      ensures !aDrainHandlerCalled && !bDrainHandlerCalled
      ensures handler == Some(h) && drains == []
      ensures a == old(a) && b == old(b) && handled == old(handled)
    {
      aDrainHandlerCalled := false;
      bDrainHandlerCalled := false;
      handler := Some(h);
      drains := [];
    }

    /** The callback installed on `a`: sets `a`'s flag and calls the handler when `b`'s flag is set. */
    method OnADrain()
      requires Valid() && handler.Some?
      modifies this
      ensures Valid()
      ensures drains == old(drains) + [ADrained]
      ensures handled == old(handled) + (if Firings(drains)[|drains| - 1] then [handler.value] else [])
      ensures a == old(a) && b == old(b) && handler == old(handler)
    {
      FiringsSnoc(drains, ADrained);
      aDrainHandlerCalled := true;
      drains := drains + [ADrained];
      if bDrainHandlerCalled {
        handled := handled + [handler.value];
      }
    }

    /** The callback installed on `b`: sets `b`'s flag and calls the handler when `a`'s flag is set. */
    method OnBDrain()
      requires Valid() && handler.Some?
      modifies this
      ensures Valid()
      ensures drains == old(drains) + [BDrained]
      ensures handled == old(handled) + (if Firings(drains)[|drains| - 1] then [handler.value] else [])
      ensures a == old(a) && b == old(b) && handler == old(handler)
    {
      FiringsSnoc(drains, BDrained);
      bDrainHandlerCalled := true;
      drains := drains + [BDrained];
      if aDrainHandlerCalled {
        handled := handled + [handler.value];
      }
    }
  }
}

=== FILE: file_system_utils.dfy ===
/** `data/FileSystemUtils.getPath`: joins path parts with the platform's file separator. */
module Paths {
  import opened Strings

  /**
   * The path the `getPath` loop builds: each part is appended, preceded by the separator
   * only when the path built so far is not empty.
   */
  function JoinPath(parts: seq<string>, sep: char): string {
    if parts == [] then ""
    else
      var path := JoinPath(parts[..|parts| - 1], sep);
      if path == "" then parts[|parts| - 1] else path + [sep] + parts[|parts| - 1]
  }

  /** The usual join: the parts with one separator between neighbours. */
  function Join(parts: seq<string>, sep: char): string {
    if parts == [] then ""
    else if |parts| == 1 then parts[0]
    else parts[0] + [sep] + Join(parts[1..], sep)
  }

  method GetPath(parts: seq<string>, sep: char) returns (path: string)
    ensures path == JoinPath(parts, sep)
  {
    path := "";
    for i := 0 to |parts|
      invariant path == JoinPath(parts[..i], sep)
    {
      assert parts[..i + 1][..i] == parts[..i];
      if path != "" {
        path := path + [sep];
      }
      path := path + parts[i];
    }
    assert parts[..|parts|] == parts;
  }

  lemma {:induction false} JoinSnoc(parts: seq<string>, p: string, sep: char)
    requires parts != []
    ensures Join(parts + [p], sep) == Join(parts, sep) + [sep] + p
  {
    if |parts| == 1 {
      assert (parts + [p])[1..] == [p];
    } else {
      assert (parts + [p])[1..] == parts[1..] + [p];
      JoinSnoc(parts[1..], p, sep);
    }
  }

  lemma {:induction false} JoinPathStartsWith(parts: seq<string>, sep: char)
    requires parts != []
    ensures parts[0] <= JoinPath(parts, sep)
  {
    if |parts| > 1 {
      var front := parts[..|parts| - 1];
      JoinPathStartsWith(front, sep);
    }
  }

  /** When the first part is not empty, `getPath` is the usual join: one separator between neighbours. */
  lemma {:induction false} JoinPathIsJoin(parts: seq<string>, sep: char)
    requires parts != [] && parts[0] != ""
    ensures JoinPath(parts, sep) == Join(parts, sep)
  {
    if |parts| > 1 {
      var front := parts[..|parts| - 1];
      var last := parts[|parts| - 1];
      JoinPathIsJoin(front, sep);
      JoinPathStartsWith(front, sep);
      JoinSnoc(front, last, sep);
      assert front + [last] == parts;
    }
  }

  /** Leading empty parts add nothing, not even a separator. */
  lemma {:induction false} JoinPathLeadingEmpty(parts: seq<string>, sep: char)
    requires parts != [] && parts[0] == ""
    ensures JoinPath(parts, sep) == JoinPath(parts[1..], sep)
  {
    if |parts| > 1 {
      var front := parts[..|parts| - 1];
      JoinPathLeadingEmpty(front, sep);
      assert front[1..] == parts[1..][..|parts| - 2];
    } else {
      assert JoinPath(parts[..0], sep) == "";
    }
  }

  /** No parts give the empty path and one part gives that part. */
  lemma JoinPathShort(p: string, sep: char)
    ensures JoinPath([], sep) == ""
    ensures JoinPath([p], sep) == p
  {
    assert [p][..0] == [];
  }
}

=== FILE: filesystem_tile_cache.dfy ===
/**
 * `data/FilesystemTileCache`: tiles stored as `root/set/z/x/y/tile.<ext>`. The
 * asynchronous Vert.x file system is abstracted as a value: the directories with their
 * listings (full paths, in the order the entries were created) and the set of plain files.
 */
module FsCache {
  import opened Util
  import opened Strings
  import opened Paths
  import opened CacheResults

  datatype Fs = Fs(dirs: map<string, seq<string>>, files: set<string>)

  /** Why a cache operation's future fails. */
  datatype CacheError =
    | NotADirectory(path: string)   // mkdirs: the path, or a directory above it, is a plain file
    | IsADirectory(path: string)    // open: the file path is a directory
    | NoSuchDirectory(path: string) // readDir: the directory does not exist
    | IndexOutOfBounds              // ofFilePath on a name without a dot

  /**
   * The directories above `path`, outermost first: every non-empty proper prefix that a
   * separator follows (`a/b/c` has `a` and `a/b`).
   */
  function Ancestors(path: string, sep: char): (r: seq<string>)
    ensures forall a | a in r :: a != "" && |a| < |path| && a == path[..|a|] && path[|a|] == sep
    ensures forall k | 0 < k < |path| && path[k] == sep :: path[..k] in r
    decreases |path|
  {
    if path == [] then []
    else
      var front := path[..|path| - 1];
      var up := Ancestors(front, sep);
      assert forall k | 0 < k < |front| :: front[..k] == path[..k];
      up + (if path[|path| - 1] == sep && front != "" then [front] else [])
  }

  /** The directory `path` sits in, when it has one. */
  function Parent(path: string, sep: char): (r: Option<string>)
    ensures r.Some? ==> r.value in Ancestors(path, sep)
  {
    var up := Ancestors(path, sep);
    if up == [] then None else Some(up[|up| - 1])
  }

  /**
   * Creates the directory `d` when it is missing: it starts empty and is listed in its parent
   * when the parent exists.
   */
  function MakeDir(dirs: map<string, seq<string>>, d: string, sep: char): (r: map<string, seq<string>>)
    ensures r.Keys == dirs.Keys + {d}
    ensures d !in dirs ==> r[d] == []
    ensures forall e | e in dirs ::
      && dirs[e] <= r[e] && |r[e]| <= |dirs[e]| + 1
      && (|r[e]| > |dirs[e]| ==> d !in dirs && r[e][|dirs[e]|] == d)
  {
    if d in dirs then dirs
    else
      match Parent(d, sep)
      case Some(p) =>
        if p in dirs then dirs[d := []][p := dirs[p] + [d]] else dirs[d := []]
      case None => dirs[d := []]
  }

  /** Creates the directories of `chain` in order, skipping those that exist. */
  function MakeAll(dirs: map<string, seq<string>>, chain: seq<string>, sep: char): (r: map<string, seq<string>>)
    ensures r.Keys == dirs.Keys + set d | d in chain
    ensures forall e | e in dirs :: dirs[e] <= r[e]
    ensures forall e, k | e in dirs && |dirs[e]| <= k < |r[e]| :: r[e][k] in chain && r[e][k] !in dirs
    decreases |chain|
  {
    if chain == [] then dirs
    else
      var front := chain[..|chain| - 1];
      var d := chain[|chain| - 1];
      assert chain == front + [d];
      var m := MakeAll(dirs, front, sep);
      var r := MakeDir(m, d, sep);
      MakeAllStep(dirs, front, d, m, r);
      r
  }

  /** One more directory keeps the listings of the old directories growing only by created ones. */
  lemma MakeAllStep(dirs: map<string, seq<string>>, front: seq<string>, d: string,
                    m: map<string, seq<string>>, r: map<string, seq<string>>)
    requires m.Keys == dirs.Keys + set c | c in front
    requires forall e | e in dirs :: dirs[e] <= m[e]
    requires forall e, k | e in dirs && |dirs[e]| <= k < |m[e]| :: m[e][k] in front && m[e][k] !in dirs
    requires r.Keys == m.Keys + {d}
    requires forall e | e in m :: m[e] <= r[e] && |r[e]| <= |m[e]| + 1 && (|r[e]| > |m[e]| ==> d !in m && r[e][|m[e]|] == d)
    ensures r.Keys == dirs.Keys + set c | c in front + [d]
    ensures forall e | e in dirs :: dirs[e] <= r[e]
    ensures forall e, k | e in dirs && |dirs[e]| <= k < |r[e]| :: r[e][k] in front + [d] && r[e][k] !in dirs
  {
    assert (set c | c in front + [d]) == (set c | c in front) + {d};
    forall e, k | e in dirs && |dirs[e]| <= k < |r[e]|
      ensures r[e][k] in front + [d] && r[e][k] !in dirs
    {
      if k < |m[e]| {
        assert r[e][k] == m[e][k];
      } else {
        assert r[e][k] == d;
      }
    }
  }

  /**
   * `fs.mkdirs(path)`, which creates the missing directories above `path` as well: an existing
   * directory succeeds unchanged; a plain file at `path`, or at a missing directory's place
   * above it, fails.
   */
  function Mkdirs(fs: Fs, path: string, sep: char): (r: Result<Fs, CacheError>)
    ensures r.Failure? <==>
      path in fs.files || (path !in fs.dirs && exists a | a in Ancestors(path, sep) :: a in fs.files)
    ensures r.Success? ==> path in r.value.dirs && r.value.files == fs.files
    ensures r.Success? ==> path in fs.dirs ==> r.value == fs
    ensures r.Success? ==> path !in fs.dirs ==>
      && r.value.dirs.Keys == fs.dirs.Keys + {path} + (set a | a in Ancestors(path, sep))
      && r.value.dirs[path] == []
      && forall e | e in fs.dirs :: fs.dirs[e] <= r.value.dirs[e]
  {
    if path in fs.files then Failure(NotADirectory(path))
    else if path in fs.dirs then Success(fs)
    else if exists a | a in Ancestors(path, sep) :: a in fs.files then Failure(NotADirectory(path))
    else
      var up := Ancestors(path, sep);
      var m := MakeAll(fs.dirs, up, sep);
      var r := MakeDir(m, path, sep);
      MkdirsCreates(fs.dirs, up, path, m, r);
      Success(fs.(dirs := r))
  }

  /** The directory asked for comes last and so starts empty; older listings only grow. */
  lemma MkdirsCreates(dirs: map<string, seq<string>>, up: seq<string>, path: string,
                      m: map<string, seq<string>>, r: map<string, seq<string>>)
    requires path !in dirs && forall a | a in up :: |a| < |path|
    requires m.Keys == dirs.Keys + set c | c in up
    requires forall e | e in dirs :: dirs[e] <= m[e]
    requires r.Keys == m.Keys + {path}
    requires path !in m ==> r[path] == []
    requires forall e | e in m :: m[e] <= r[e]
    ensures r.Keys == dirs.Keys + {path} + set c | c in up
    ensures path in r && r[path] == []
    ensures forall e | e in dirs :: dirs[e] <= r[e]
  {
    assert path !in m;
    forall e | e in dirs ensures dirs[e] <= r[e] {
      assert e in m;
    }
  }

  /** `fs.open(file, create + write)` inside the existing directory `dir`: creates the file unless it exists. */
  function Open(fs: Fs, dir: string, file: string): (r: Result<Fs, CacheError>)
    requires dir in fs.dirs
    ensures r.Failure? <==> file in fs.dirs
    ensures r.Success? ==> file in r.value.files && dir in r.value.dirs
    ensures r.Success? && file !in fs.files ==>
      r.value == Fs(fs.dirs[dir := fs.dirs[dir] + [file]], fs.files + {file})
  {
    if file in fs.dirs then Failure(IsADirectory(file))
    else if file in fs.files then Success(fs)
    else Success(Fs(fs.dirs[dir := fs.dirs[dir] + [file]], fs.files + {file}))
  }

  /** The decision `retrieve` makes over a directory listing. */
  function Decide(listing: seq<string>): (r: Result<TileCacheResult, CacheError>)
    ensures |listing| != 1 ==> r == Success(EMPTY)
    ensures |listing| == 1 && OfFilePath(listing[0]).Success? ==> r == Success(OfFilePath(listing[0]).value)
    ensures |listing| == 1 && OfFilePath(listing[0]).Failure? ==> r == Failure(CacheError.IndexOutOfBounds)
  {
    if |listing| == 1 then
      match OfFilePath(listing[0])
      case Success(t) => Success(t)
      case Failure(_) => Failure(CacheError.IndexOutOfBounds)
    else Success(EMPTY)
  }

  /** `directory` is the configured root, taken as given (its normalisation is not modelled); `sep` the platform file separator. */
  datatype FilesystemTileCache = FilesystemTileCache(directory: string, sep: char)
  {
    /** The coordinate directory shared by `store` and `retrieve`. */
    function TileDir(tileSetName: string, z: Int32, x: Int32, y: Int32): string {
      JoinPath([directory, tileSetName, Dec(z), Dec(x), Dec(y)], sep)
    }

    /**
     * The file `store` opens. The extension is a media subtype without a path separator, so the
     * file sits directly in the coordinate directory.
     */
    function TileFile(tileSetName: string, z: Int32, x: Int32, y: Int32, extension: string): string {
      TileDir(tileSetName, z, x, y) + [sep] + "tile." + extension
    }

    /** The class's private copy of `FileSystemUtils.getPath`. */
    method GetPath(parts: seq<string>) returns (path: string)
      ensures path == JoinPath(parts, sep)
    {
      path := "";
      for i := 0 to |parts|
        invariant path == JoinPath(parts[..i], sep)
      {
        assert parts[..i + 1][..i] == parts[..i];
        if path != "" {
          path := path + [sep];
        }
        path := path + parts[i];
      }
      assert parts[..|parts|] == parts;
    }

    /**
     * Creates the coordinate directory, then opens `tile.<extension>` in it; either step
     * failing fails the result (after the source logs it). The open file is the stream the
     * caller writes to; here only its effect on the file system is kept.
     */
    method Store(fs: Fs, tileSetName: string, z: Int32, x: Int32, y: Int32, extension: string)
      returns (r: Result<Fs, CacheError>)
      ensures r == StoreSpec(fs, tileSetName, z, x, y, extension)
    {
      var path := GetPath([directory, tileSetName, Dec(z), Dec(x), Dec(y)]);
      var file := path + [sep] + "tile." + extension;
      var made := Mkdirs(fs, path, sep);
      if made.Failure? {
        r := Failure(made.error);
      } else {
        r := Open(made.value, path, file);
      }
    }

    function StoreSpec(fs: Fs, tileSetName: string, z: Int32, x: Int32, y: Int32, extension: string)
      : (r: Result<Fs, CacheError>)
      ensures var dir := TileDir(tileSetName, z, x, y);
        r.Failure? <==>
        || dir in fs.files
        || (dir !in fs.dirs && exists a | a in Ancestors(dir, sep) :: a in fs.files)
        || TileFile(tileSetName, z, x, y, extension) in fs.dirs
      ensures r.Success? ==> TileFile(tileSetName, z, x, y, extension) in r.value.files
      ensures r.Success? ==> TileDir(tileSetName, z, x, y) in r.value.dirs
    {
      var dir := TileDir(tileSetName, z, x, y);
      var file := TileFile(tileSetName, z, x, y, extension);
      match Mkdirs(fs, dir, sep)
      case Failure(e) => Failure(e)
      case Success(fs') =>
        assert file !in Ancestors(dir, sep) && file != dir by {
          assert |file| > |dir|;
        }
        Open(fs', dir, file)
    }

    /** Lists the coordinate directory and decides on the listing; a missing directory fails the future. */
    method Retrieve(fs: Fs, tileSetName: string, z: Int32, x: Int32, y: Int32)
      returns (r: Result<TileCacheResult, CacheError>)
      ensures r == RetrieveSpec(fs, tileSetName, z, x, y)
    {
      var path := GetPath([directory, tileSetName, Dec(z), Dec(x), Dec(y)]);
      if path !in fs.dirs {
        r := Failure(NoSuchDirectory(path));
      } else {
        r := Decide(fs.dirs[path]);
      }
    }

    /** What `retrieve` yields: a missing directory fails, otherwise the listing decides. */
    function RetrieveSpec(fs: Fs, tileSetName: string, z: Int32, x: Int32, y: Int32): Result<TileCacheResult, CacheError> {
      var dir := TileDir(tileSetName, z, x, y);
      if dir !in fs.dirs then Failure(NoSuchDirectory(dir)) else Decide(fs.dirs[dir])
    }
  }

  /** Under a non-empty root the layout is `root/set/z/x/y`, one separator between neighbours. */
  lemma TileDirLayout(cache: FilesystemTileCache, tileSetName: string, z: Int32, x: Int32, y: Int32)
    requires cache.directory != ""
    ensures cache.TileDir(tileSetName, z, x, y) ==
      cache.directory + [cache.sep] + tileSetName + [cache.sep] + Dec(z) + [cache.sep] + Dec(x) + [cache.sep] + Dec(y)
  {
    var parts := [cache.directory, tileSetName, Dec(z), Dec(x), Dec(y)];
    var sep := cache.sep;
    JoinPathIsJoin(parts, sep);
    assert Join(parts[3..], sep) == Dec(x) + [sep] + Dec(y) by {
      assert parts[3..][1..] == [Dec(y)];
    }
    assert Join(parts[2..], sep) == Dec(z) + [sep] + Join(parts[3..], sep) by {
      assert parts[2..][1..] == parts[3..];
    }
    assert Join(parts[1..], sep) == tileSetName + [sep] + Join(parts[2..], sep) by {
      assert parts[1..][1..] == parts[2..];
    }
  }

  /**
   * Storing a tile into a coordinate directory that is absent or empty, then retrieving it,
   * yields a result carrying the stored extension and the file's path.
   */
  lemma {:induction false} StoreThenRetrieve(cache: FilesystemTileCache, fs: Fs, tileSetName: string,
                                             z: Int32, x: Int32, y: Int32, extension: string)
    requires cache.sep in PathSeparators && NoneOf(extension, PathSeparators)
    requires cache.TileDir(tileSetName, z, x, y) !in fs.files
    requires cache.TileDir(tileSetName, z, x, y) in fs.dirs ==> fs.dirs[cache.TileDir(tileSetName, z, x, y)] == []
    requires cache.TileDir(tileSetName, z, x, y) !in fs.dirs ==>
      forall a | a in Ancestors(cache.TileDir(tileSetName, z, x, y), cache.sep) :: a !in fs.files
    requires cache.TileFile(tileSetName, z, x, y, extension) !in fs.dirs
    requires cache.TileFile(tileSetName, z, x, y, extension) !in fs.files
    ensures cache.StoreSpec(fs, tileSetName, z, x, y, extension).Success?
    ensures cache.RetrieveSpec(cache.StoreSpec(fs, tileSetName, z, x, y, extension).value, tileSetName, z, x, y)
         == Success(TileCacheResult(Some(extension), Some(cache.TileFile(tileSetName, z, x, y, extension)), None))
  {
    var dir := cache.TileDir(tileSetName, z, x, y);
    var file := cache.TileFile(tileSetName, z, x, y, extension);
    assert |file| > |dir|;
    var fs1 := Mkdirs(fs, dir, cache.sep).value;
    assert fs1.dirs[dir] == [];
    var fs2 := cache.StoreSpec(fs, tileSetName, z, x, y, extension).value;
    assert fs2.dirs[dir] == [file];
    OfFilePathTile(dir, cache.sep, extension);
  }

  /** Storing the same tile again changes nothing. */
  lemma StoreIdempotent(cache: FilesystemTileCache, fs: Fs, tileSetName: string,
                        z: Int32, x: Int32, y: Int32, extension: string)
    requires cache.StoreSpec(fs, tileSetName, z, x, y, extension).Success?
    ensures var fs' := cache.StoreSpec(fs, tileSetName, z, x, y, extension).value;
      cache.StoreSpec(fs', tileSetName, z, x, y, extension) == Success(fs')
  {
  }

  /**
   * Two tiles with different extensions stored under the same coordinates leave two files
   * in the directory, and `retrieve` then reports the empty result.
   */
  lemma {:induction false} TwoExtensionsRetrieveEmpty(cache: FilesystemTileCache, fs: Fs, tileSetName: string,
                                                      z: Int32, x: Int32, y: Int32, ext1: string, ext2: string)
    requires ext1 != ext2
    requires cache.TileDir(tileSetName, z, x, y) !in fs.files
    requires cache.TileDir(tileSetName, z, x, y) in fs.dirs ==> fs.dirs[cache.TileDir(tileSetName, z, x, y)] == []
    requires cache.TileDir(tileSetName, z, x, y) !in fs.dirs ==>
      forall a | a in Ancestors(cache.TileDir(tileSetName, z, x, y), cache.sep) :: a !in fs.files
    requires cache.TileFile(tileSetName, z, x, y, ext1) !in fs.dirs && cache.TileFile(tileSetName, z, x, y, ext1) !in fs.files
    requires cache.TileFile(tileSetName, z, x, y, ext2) !in fs.dirs && cache.TileFile(tileSetName, z, x, y, ext2) !in fs.files
    ensures cache.StoreSpec(fs, tileSetName, z, x, y, ext1).Success?
    ensures var fs1 := cache.StoreSpec(fs, tileSetName, z, x, y, ext1).value;
      && cache.StoreSpec(fs1, tileSetName, z, x, y, ext2).Success?
      && cache.RetrieveSpec(cache.StoreSpec(fs1, tileSetName, z, x, y, ext2).value, tileSetName, z, x, y) == Success(EMPTY)
  {
    var dir := cache.TileDir(tileSetName, z, x, y);
    var f1 := cache.TileFile(tileSetName, z, x, y, ext1);
    var f2 := cache.TileFile(tileSetName, z, x, y, ext2);
    assert |f1| > |dir| && |f2| > |dir|;
    assert f1 != f2 by {
      assert f1[|dir| + 6..] == ext1;
      assert f2[|dir| + 6..] == ext2;
    }
    var fs1 := cache.StoreSpec(fs, tileSetName, z, x, y, ext1).value;
    assert fs1.dirs[dir] == [f1];
    var fs2 := cache.StoreSpec(fs1, tileSetName, z, x, y, ext2).value;
    assert fs2.dirs[dir] == [f1, f2];
  }

  /** A plain file where the coordinate directory belongs fails the store, whatever the extension. */
  lemma StoreBlockedByFile(cache: FilesystemTileCache, fs: Fs, tileSetName: string,
                           z: Int32, x: Int32, y: Int32, extension: string)
    requires cache.TileDir(tileSetName, z, x, y) in fs.files
    ensures cache.StoreSpec(fs, tileSetName, z, x, y, extension) == Failure(NotADirectory(cache.TileDir(tileSetName, z, x, y)))
  {
  }

  /**
   * A plain file in place of a directory above the coordinate directory fails the store when
   * the coordinate directory is missing; a plain file named like the root is one such case.
   */
  lemma StoreBlockedByAncestor(cache: FilesystemTileCache, fs: Fs, tileSetName: string,
                               z: Int32, x: Int32, y: Int32, extension: string)
    requires cache.TileDir(tileSetName, z, x, y) !in fs.dirs
    requires cache.directory != "" && cache.directory in fs.files
    ensures cache.StoreSpec(fs, tileSetName, z, x, y, extension).Failure?
  {
    var dir := cache.TileDir(tileSetName, z, x, y);
    TileDirLayout(cache, tileSetName, z, x, y);
    var n := |cache.directory|;
    assert dir[..n] == cache.directory && dir[n] == cache.sep;
    assert cache.directory in Ancestors(dir, cache.sep);
  }
}

=== FILE: strings.dfy ===
/**
 * The pieces of `java.lang.String`, `Integer` and `StringBuilder` behaviour that the
 * proxy relies on, stated once: splitting on a character class, decimal rendering of an
 * `int`, `Integer.parseInt`, `String.trim` and ASCII lower-casing.
 */
module Strings {
  import opened Util

  /** True when no character of `s` belongs to `cs`. */
  predicate NoneOf(s: string, cs: set<char>) {
    forall i | 0 <= i < |s| :: s[i] !in cs
  }

  /** The strings of `ss` appended one after the other, as a `StringBuilder` does. */
  function Concat(ss: seq<string>): string {
    if ss == [] then "" else ss[0] + Concat(ss[1..])
  }

  lemma {:induction false} ConcatSnoc(ss: seq<string>, t: string)
    ensures Concat(ss + [t]) == Concat(ss) + t
  {
    if ss == [] {
      assert ss + [t] == [t];
    } else {
      assert (ss + [t])[1..] == ss[1..] + [t];
      ConcatSnoc(ss[1..], t);
    }
  }

  lemma {:induction false} ConcatNoneOf(ss: seq<string>, cs: set<char>)
    requires forall k | 0 <= k < |ss| :: NoneOf(ss[k], cs)
    ensures NoneOf(Concat(ss), cs)
  {
    if ss != [] {
      ConcatNoneOf(ss[1..], cs);
      var rest := Concat(ss[1..]);
      assert Concat(ss) == ss[0] + rest;
      forall i | 0 <= i < |Concat(ss)| ensures Concat(ss)[i] !in cs {
        if i < |ss[0]| {
          assert Concat(ss)[i] == ss[0][i];
        } else {
          assert Concat(ss)[i] == rest[i - |ss[0]|];
        }
      }
    }
  }

  // ---------------------------------------------------------------------------
  // String.split on a one-character class (`"[{}]"`, `"[/\\\\]"`, a quoted ".")
  // ---------------------------------------------------------------------------

  /** `s` cut at every character of `seps`; empty pieces kept, so there is one more piece than separators. */
  function Segments(s: string, seps: set<char>): (r: seq<string>)
    ensures |r| >= 1
    decreases |s|
  {
    if s == [] then [""]
    else
      var rest := Segments(s[1..], seps);
      if s[0] in seps then [""] + rest
      else [[s[0]] + rest[0]] + rest[1..]
  }

  /** `ss` without its trailing empty strings. */
  function DropTrailingEmpty(ss: seq<string>): (r: seq<string>)
    ensures |r| <= |ss| && r == ss[..|r|]
    ensures r == [] || r[|r| - 1] != ""
    ensures forall k | |r| <= k < |ss| :: ss[k] == ""
    decreases |ss|
  {
    if ss != [] && ss[|ss| - 1] == "" then DropTrailingEmpty(ss[..|ss| - 1]) else ss
  }

  /**
   * Java's `String.split(regex)` for a regex that matches exactly one character of `seps`:
   * an input without a separator comes back whole (even when empty); otherwise the
   * pieces between separators, with trailing empty pieces removed.
   */
  function Split(s: string, seps: set<char>): seq<string> {
    if NoneOf(s, seps) then [s] else DropTrailingEmpty(Segments(s, seps))
  }

  /** The text of `s` before its first separator (all of `s` when there is none). */
  function TakeUntil(s: string, seps: set<char>): (r: string)
    ensures NoneOf(r, seps) && r <= s
    ensures |r| < |s| ==> s[|r|] in seps
  {
    if s == [] || s[0] in seps then "" else [s[0]] + TakeUntil(s[1..], seps)
  }

  lemma {:induction false} SegmentsNoneOf(s: string, seps: set<char>)
    ensures forall k | 0 <= k < |Segments(s, seps)| :: NoneOf(Segments(s, seps)[k], seps)
    decreases |s|
  {
    if s != [] {
      SegmentsNoneOf(s[1..], seps);
      var rest := Segments(s[1..], seps);
      if s[0] !in seps {
        var first := [s[0]] + rest[0];
        assert NoneOf(first, seps) by {
          forall i | 0 <= i < |first| ensures first[i] !in seps {
            if i > 0 { assert first[i] == rest[0][i - 1]; }
          }
        }
      }
    }
  }

  /** Gluing the pieces back together gives `s` with its separators removed. */
  function Without(s: string, seps: set<char>): (r: string)
    ensures NoneOf(r, seps)
  {
    if s == [] then ""
    else if s[0] in seps then Without(s[1..], seps)
    else [s[0]] + Without(s[1..], seps)
  }

  lemma {:induction false} ConcatSegments(s: string, seps: set<char>)
    ensures Concat(Segments(s, seps)) == Without(s, seps)
    decreases |s|
  {
    if s != [] {
      ConcatSegments(s[1..], seps);
      var rest := Segments(s[1..], seps);
      if s[0] in seps {
        assert ([""] + rest)[1..] == rest;
      } else {
        var r := [[s[0]] + rest[0]] + rest[1..];
        assert r[1..] == rest[1..];
        assert Concat(rest) == rest[0] + Concat(rest[1..]);
      }
    }
  }

  lemma {:induction false} SegmentsFirst(s: string, seps: set<char>)
    ensures Segments(s, seps)[0] == TakeUntil(s, seps)
    decreases |s|
  {
    if s != [] && s[0] !in seps {
      SegmentsFirst(s[1..], seps);
    }
  }

  lemma {:induction false} SegmentsWithoutSeparator(s: string, seps: set<char>)
    requires NoneOf(s, seps)
    ensures Segments(s, seps) == [s]
    decreases |s|
  {
    if s != [] {
      assert NoneOf(s[1..], seps) by {
        forall i | 0 <= i < |s| - 1 ensures s[1..][i] !in seps {
          assert s[1..][i] == s[i + 1];
        }
      }
      SegmentsWithoutSeparator(s[1..], seps);
      assert [s[0]] + s[1..] == s;
    }
  }

  /** A separator splits the pieces of the two sides apart. */
  lemma {:induction false} SegmentsAround(a: string, c: char, b: string, seps: set<char>)
    requires c in seps
    ensures Segments(a + [c] + b, seps) == Segments(a, seps) + Segments(b, seps)
    decreases |a|
  {
    if a == [] {
      assert a + [c] + b == [c] + b;
      assert ([c] + b)[1..] == b;
    } else {
      assert (a + [c] + b)[1..] == a[1..] + [c] + b;
      SegmentsAround(a[1..], c, b, seps);
    }
  }

  /** `pieces` joined with `cs[k]` between piece `k` and piece `k + 1`. */
  function Interleave(pieces: seq<string>, cs: seq<char>): (r: string)
    requires |pieces| == |cs| + 1
    ensures |r| == |Concat(pieces)| + |cs|
  {
    if cs == [] then pieces[0]
    else pieces[0] + [cs[0]] + Interleave(pieces[1..], cs[1..])
  }

  /** Pieces without separators, joined by separators, are cut back into exactly those pieces. */
  lemma {:induction false} SegmentsInterleave(pieces: seq<string>, cs: seq<char>, seps: set<char>)
    requires |pieces| == |cs| + 1
    requires forall k | 0 <= k < |pieces| :: NoneOf(pieces[k], seps)
    requires forall k | 0 <= k < |cs| :: cs[k] in seps
    ensures Segments(Interleave(pieces, cs), seps) == pieces
    decreases |cs|
  {
    SegmentsWithoutSeparator(pieces[0], seps);
    if cs != [] {
      var rest := Interleave(pieces[1..], cs[1..]);
      SegmentsAround(pieces[0], cs[0], rest, seps);
      SegmentsInterleave(pieces[1..], cs[1..], seps);
      assert pieces == [pieces[0]] + pieces[1..];
    }
  }

  /** `s` without the run of separators at its end. */
  function DropTrailingSeps(s: string, seps: set<char>): (r: string)
    ensures r <= s
    ensures r == [] || r[|r| - 1] !in seps
    ensures forall i | |r| <= i < |s| :: s[i] in seps
    decreases |s|
  {
    if s != [] && s[|s| - 1] in seps then DropTrailingSeps(s[..|s| - 1], seps) else s
  }

  /** The longest end of `s` without a separator: the text after its last separator. */
  function LastPiece(s: string, seps: set<char>): (r: string)
    ensures NoneOf(r, seps) && |r| <= |s| && r == s[|s| - |r|..]
    ensures |r| < |s| ==> s[|s| - |r| - 1] in seps
    decreases |s|
  {
    if NoneOf(s, seps) then s
    else
      NoneOfCons(s, seps);
      LastPiece(s[1..], seps)
  }

  /** The last piece of the cut is the text after the last separator. */
  lemma {:induction false} SegmentsLast(s: string, seps: set<char>)
    ensures Segments(s, seps)[|Segments(s, seps)| - 1] == LastPiece(s, seps)
    ensures |Segments(s, seps)| == 1 <==> NoneOf(s, seps)
    decreases |s|
  {
    if s != [] {
      SegmentsLast(s[1..], seps);
      SegmentsLastStep(s, seps);
    }
  }

  /** One character in front: the step of `SegmentsLast`. */
  lemma SegmentsLastStep(s: string, seps: set<char>)
    requires s != []
    requires Segments(s[1..], seps)[|Segments(s[1..], seps)| - 1] == LastPiece(s[1..], seps)
    requires |Segments(s[1..], seps)| == 1 <==> NoneOf(s[1..], seps)
    ensures Segments(s, seps)[|Segments(s, seps)| - 1] == LastPiece(s, seps)
    ensures |Segments(s, seps)| == 1 <==> NoneOf(s, seps)
  {
    NoneOfCons(s, seps);
    if NoneOf(s, seps) {
      SegmentsWithoutSeparator(s, seps);
    } else {
      assert LastPiece(s, seps) == LastPiece(s[1..], seps);
      SegmentsLastCons(s, seps);
    }
  }

  /** With a separator in `s`, a character in front changes neither the last piece nor makes the cut whole. */
  lemma SegmentsLastCons(s: string, seps: set<char>)
    requires s != [] && !NoneOf(s, seps)
    requires |Segments(s[1..], seps)| == 1 <==> NoneOf(s[1..], seps)
    requires s[0] !in seps ==> !NoneOf(s[1..], seps)
    ensures |Segments(s, seps)| > 1
    ensures Segments(s, seps)[|Segments(s, seps)| - 1] == Segments(s[1..], seps)[|Segments(s[1..], seps)| - 1]
  {
    var rest := Segments(s[1..], seps);
    if s[0] in seps {
      assert Segments(s, seps) == [""] + rest;
    } else {
      assert |rest| != 1;
      assert Segments(s, seps) == [[s[0]] + rest[0]] + rest[1..];
    }
  }

  lemma NoneOfCons(s: string, seps: set<char>)
    requires s != []
    ensures NoneOf(s, seps) <==> s[0] !in seps && NoneOf(s[1..], seps)
  {
    if s[0] !in seps && NoneOf(s[1..], seps) {
      forall i | 0 <= i < |s| ensures s[i] !in seps {
        if i > 0 { assert s[i] == s[1..][i - 1]; }
      }
    }
  }

  lemma SegmentsSnoc(a: string, c: char, seps: set<char>)
    requires c in seps
    ensures Segments(a + [c], seps) == Segments(a, seps) + [""]
  {
    assert a + [c] + "" == a + [c];
    SegmentsAround(a, c, "", seps);
  }

  lemma DropTrailingEmptySnoc(ss: seq<string>)
    ensures DropTrailingEmpty(ss + [""]) == DropTrailingEmpty(ss)
  {
    assert (ss + [""])[..|ss|] == ss;
  }

  /** Separators at the end only add empty pieces, which the split drops again. */
  lemma {:induction false} DropTrailingSegments(s: string, n: nat, seps: set<char>)
    requires n <= |s|
    requires forall i | n <= i < |s| :: s[i] in seps
    ensures DropTrailingEmpty(Segments(s, seps)) == DropTrailingEmpty(Segments(s[..n], seps))
    decreases |s|
  {
    if n == |s| {
      assert s[..n] == s;
    } else {
      var front := s[..|s| - 1];
      assert front[..n] == s[..n];
      DropTrailingSegments(front, n, seps);
      assert s == front + [s[|s| - 1]];
      SegmentsSnoc(front, s[|s| - 1], seps);
      DropTrailingEmptySnoc(Segments(front, seps));
    }
  }

  /** The last piece of a split is the text after the last separator that is not at the end. */
  lemma SplitLast(s: string, seps: set<char>)
    requires Split(s, seps) != []
    ensures Split(s, seps)[|Split(s, seps)| - 1] == LastPiece(DropTrailingSeps(s, seps), seps)
  {
    if NoneOf(s, seps) {
      assert Split(s, seps) == [s];
      SplitLastWhole(s, seps);
    } else {
      var t := DropTrailingSeps(s, seps);
      assert t != [] by {
        if t == [] {
          SplitFirst(s, seps);
        }
      }
      SplitLastTrimmed(s, t, seps);
    }
  }

  /** Without a separator nothing is dropped and the last piece is the whole string. */
  lemma SplitLastWhole(s: string, seps: set<char>)
    requires NoneOf(s, seps)
    ensures LastPiece(DropTrailingSeps(s, seps), seps) == s
  {
    assert s == [] || s[|s| - 1] !in seps;
    assert DropTrailingSeps(s, seps) == s;
  }

  /** The case with a separator: the pieces of `s` are those of `s` without its trailing separators. */
  lemma SplitLastTrimmed(s: string, t: string, seps: set<char>)
    requires t == DropTrailingSeps(s, seps) && t != []
    ensures DropTrailingEmpty(Segments(s, seps)) == Segments(t, seps)
    ensures Segments(t, seps)[|Segments(t, seps)| - 1] == LastPiece(t, seps)
  {
    assert s[..|t|] == t;
    DropTrailingSegments(s, |t|, seps);
    SegmentsLast(t, seps);
    var ss := Segments(t, seps);
    var r := LastPiece(t, seps);
    assert r != "";
    assert DropTrailingEmpty(ss) == ss;
  }

  lemma SplitNoneOf(s: string, seps: set<char>)
    ensures forall k | 0 <= k < |Split(s, seps)| :: NoneOf(Split(s, seps)[k], seps)
  {
    if !NoneOf(s, seps) {
      SegmentsNoneOf(s, seps);
    }
  }

  /** Splitting a text with a separator yields the piece before the first separator, unless every piece is empty. */
  lemma SplitFirst(s: string, seps: set<char>)
    ensures Split(s, seps) == [] <==> s != "" && forall i | 0 <= i < |s| :: s[i] in seps
    ensures Split(s, seps) != [] ==> Split(s, seps)[0] == TakeUntil(s, seps)
  {
    if NoneOf(s, seps) {
      TakeUntilAll(s, seps);
    } else {
      var segs := Segments(s, seps);
      SegmentsFirst(s, seps);
      ConcatSegments(s, seps);
      var r := DropTrailingEmpty(segs);
      if r == [] {
        AllEmptyConcat(segs);
        WithoutEmpty(s, seps);
      } else {
        assert r[0] == segs[0];
        if s != "" && forall i | 0 <= i < |s| :: s[i] in seps {
          WithoutAllSeps(s, seps);
          ConcatEmpty(segs, |r| - 1);
          assert false;
        }
      }
    }
  }

  /** The text before a first separator `c`. */
  lemma {:induction false} TakeUntilAt(p: string, c: char, rest: string, seps: set<char>)
    requires NoneOf(p, seps) && c in seps
    ensures TakeUntil(p + [c] + rest, seps) == p
  {
    if p != [] {
      assert (p + [c] + rest)[1..] == p[1..] + [c] + rest;
      assert NoneOf(p[1..], seps) by {
        forall i | 0 <= i < |p| - 1 ensures p[1..][i] !in seps {
          assert p[1..][i] == p[i + 1];
        }
      }
      TakeUntilAt(p[1..], c, rest, seps);
      assert [p[0]] + p[1..] == p;
    }
  }

  lemma {:induction false} TakeUntilAll(s: string, seps: set<char>)
    requires NoneOf(s, seps)
    ensures TakeUntil(s, seps) == s
  {
    if s != [] {
      TakeUntilAll(s[1..], seps);
    }
  }

  lemma {:induction false} AllEmptyConcat(ss: seq<string>)
    requires forall k | 0 <= k < |ss| :: ss[k] == ""
    ensures Concat(ss) == ""
  {
    if ss != [] {
      AllEmptyConcat(ss[1..]);
    }
  }

  lemma {:induction false} ConcatEmpty(ss: seq<string>, k: nat)
    requires k < |ss| && ss[k] != ""
    ensures Concat(ss) != ""
  {
    if k > 0 {
      ConcatEmpty(ss[1..], k - 1);
    }
  }

  lemma {:induction false} WithoutEmpty(s: string, seps: set<char>)
    requires Without(s, seps) == ""
    ensures forall i | 0 <= i < |s| :: s[i] in seps
  {
    if s != [] {
      WithoutEmpty(s[1..], seps);
      forall i | 0 <= i < |s| ensures s[i] in seps {
        if i > 0 { assert s[i] == s[1..][i - 1]; }
      }
    }
  }

  lemma {:induction false} WithoutAllSeps(s: string, seps: set<char>)
    requires forall i | 0 <= i < |s| :: s[i] in seps
    ensures Without(s, seps) == ""
  {
    if s != [] {
      WithoutAllSeps(s[1..], seps);
    }
  }

  // ---------------------------------------------------------------------------
  // Decimal text of an int (StringBuilder.append(int)) and Integer.parseInt
  // ---------------------------------------------------------------------------

  predicate IsDigit(c: char) { '0' <= c <= '9' }

  predicate AllDigits(s: string) {
    forall i | 0 <= i < |s| :: IsDigit(s[i])
  }

  function DigitChar(d: nat): (c: char)
    requires d < 10
    ensures IsDigit(c) && c as int - '0' as int == d
  {
    ('0' as int + d) as char
  }

  /** The decimal digits of `n`, without sign or leading zeros. */
  function NatDigits(n: nat): (r: string)
    ensures |r| >= 1 && AllDigits(r)
    ensures n > 0 ==> r[0] != '0'
  {
    if n < 10 then [DigitChar(n)] else NatDigits(n / 10) + [DigitChar(n % 10)]
  }

  /** The decimal text of `n`, with a leading `-` when negative. */
  function Dec(n: int): (r: string)
    ensures |r| >= 1
    ensures forall i | 0 <= i < |r| :: IsDigit(r[i]) || (i == 0 && r[i] == '-' && n < 0)
  {
    if n < 0 then "-" + NatDigits(-n) else NatDigits(n)
  }

  /** The value of a string of decimal digits. */
  function DigitsValue(s: string): nat
    requires AllDigits(s)
  {
    if s == [] then 0 else DigitsValue(s[..|s| - 1]) * 10 + (s[|s| - 1] as int - '0' as int)
  }

  /**
   * Java's `Integer.parseInt(s)` for ASCII digits: an optional `+` or `-`, then at least one
   * digit, and a value that fits in an `int`; anything else is a `NumberFormatException` (None).
   */
  function ParseInt(s: string): (r: Option<Int32>)
    ensures r.Some? ==> |s| >= 1 && (IsDigit(s[0]) || s[0] == '+' || s[0] == '-')
  {
    if s == [] then None
    else
      var digits := if s[0] == '-' || s[0] == '+' then s[1..] else s;
      if digits == [] || !AllDigits(digits) then None
      else
        var v: int := if s[0] == '-' then -(DigitsValue(digits) as int) else DigitsValue(digits);
        if -TWO_31 <= v < TWO_31 then Some(v) else None
  }

  lemma {:induction false} DigitsRoundTrip(n: nat)
    ensures DigitsValue(NatDigits(n)) == n
  {
    if n >= 10 {
      var s := NatDigits(n);
      assert s[..|s| - 1] == NatDigits(n / 10);
      DigitsRoundTrip(n / 10);
    }
  }

  /** `Integer.parseInt` reads back what `StringBuilder.append(int)` wrote. */
  /** A character other than a digit, past an optional leading sign, makes `parseInt` fail. */
  lemma ParseIntNonDigit(s: string, i: nat)
    requires i < |s| && !IsDigit(s[i])
    requires i == 0 ==> s[0] != '-' && s[0] != '+'
    ensures ParseInt(s) == None
  {
    if s[0] == '-' || s[0] == '+' {
      assert s[1..][i - 1] == s[i];
    }
  }

  lemma ParseIntDec(n: Int32)
    ensures ParseInt(Dec(n)) == Some(n)
  {
    var m: int := n;
    var d := Dec(m);
    if m < 0 {
      assert d[0] == '-' && d[1..] == NatDigits(-m);
      DigitsRoundTrip(-m);
      assert DigitsValue(d[1..]) == -m;
    } else {
      assert d == NatDigits(m) && d[0] != '-' && d[0] != '+';
      DigitsRoundTrip(m);
      assert DigitsValue(d) == m;
    }
  }

  /** `Integer.parseInt` accepts an explicit plus sign. */
  lemma ParseIntPlus(n: Int32)
    requires n >= 0
    ensures ParseInt("+" + Dec(n)) == Some(n)
  {
    assert ("+" + Dec(n))[1..] == NatDigits(n);
    DigitsRoundTrip(n);
  }

  // ---------------------------------------------------------------------------
  // String.trim and ASCII lower-casing
  // ---------------------------------------------------------------------------

  function TrimStart(s: string): (r: string)
    ensures r == [] || r[0] > ' '
    ensures exists k | 0 <= k <= |s| :: r == s[k..]
  {
    if s != [] && s[0] <= ' ' then
      var r := TrimStart(s[1..]);
      assert exists k | 0 <= k <= |s[1..]| :: r == s[1..][k..];
      var k :| 0 <= k <= |s[1..]| && r == s[1..][k..];
      assert r == s[k + 1..];
      r
    else
      assert s == s[0..];
      s
  }

  function TrimEnd(s: string): (r: string)
    ensures r == [] || r[|r| - 1] > ' '
    ensures r <= s
  {
    if s != [] && s[|s| - 1] <= ' ' then TrimEnd(s[..|s| - 1]) else s
  }

  /** Java's `String.trim()`: drop every character up to U+0020 from both ends. */
  function Trim(s: string): string {
    TrimEnd(TrimStart(s))
  }

  predicate Blank(s: string) {
    forall i | 0 <= i < |s| :: s[i] <= ' '
  }

  lemma {:induction false} TrimStartPadded(a: string, s: string)
    requires Blank(a) && s != [] && s[0] > ' '
    ensures TrimStart(a + s) == s
  {
    if a != [] {
      assert (a + s)[1..] == a[1..] + s;
      TrimStartPadded(a[1..], s);
    } else {
      assert a + s == s;
    }
  }

  lemma {:induction false} TrimEndPadded(s: string, b: string)
    requires Blank(b) && s != [] && s[|s| - 1] > ' '
    ensures TrimEnd(s + b) == s
  {
    if b != [] {
      assert (s + b)[..|s + b| - 1] == s + b[..|b| - 1];
      TrimEndPadded(s, b[..|b| - 1]);
    } else {
      assert s + b == s;
    }
  }

  /** `trim` removes exactly the blank padding around a text that starts and ends with a visible character. */
  lemma TrimPadded(a: string, s: string, b: string)
    requires Blank(a) && Blank(b) && s != [] && s[0] > ' ' && s[|s| - 1] > ' '
    ensures Trim(a + s + b) == s
  {
    assert a + s + b == a + (s + b);
    TrimStartPadded(a, s + b);
    TrimEndPadded(s, b);
  }

  /** `Integer.parseInt` after `trim` reads back a decimal text padded with blanks. */
  lemma ParseIntPadded(before: string, n: Int32, after: string)
    requires Blank(before) && Blank(after)
    ensures ParseInt(Trim(before + Dec(n) + after)) == Some(n)
  {
    var text := Dec(n);
    assert IsDigit(text[0]) || text[0] == '-';
    assert IsDigit(text[|text| - 1]);
    TrimPadded(before, text, after);
    ParseIntDec(n);
  }

  /** `Character.toLowerCase` restricted to ASCII. */
  function LowerChar(c: char): (r: char)
    ensures 'A' <= c <= 'Z' ==> r as int == c as int + 32
    ensures !('A' <= c <= 'Z') ==> r == c
  {
    if 'A' <= c <= 'Z' then (c as int + 32) as char else c
  }
}

=== FILE: templates.dfy ===
/**
 * The URL-template algorithm shared by `data/TileSourceUrl` and `config/TileSource`:
 * the template is split at every `{` and `}`, every one-character part is lower-cased,
 * and a URL is built by replacing each part that is exactly `z`, `x` or `y` with the
 * decimal coordinate and appending every other part unchanged.
 */
module Templates {
  import opened Util
  import opened Strings

  const Braces: set<char> := {'{', '}'}

  /** How a constructor stores one part: a one-character part is lower-cased. */
  function Normalize(part: string): string {
    if |part| == 1 then [LowerChar(part[0])] else part
  }

  /** The parts a template is stored as. */
  function TemplateParts(template: string): seq<string> {
    var raw := Split(template, Braces);
    seq(|raw|, k requires 0 <= k < |raw| => Normalize(raw[k]))
  }

  /** What one stored part contributes to a URL. */
  function Substitute(part: string, z: Int32, x: Int32, y: Int32): string {
    if part == "z" then Dec(z)
    else if part == "x" then Dec(x)
    else if part == "y" then Dec(y)
    else part
  }

  function Resolved(parts: seq<string>, z: Int32, x: Int32, y: Int32): seq<string> {
    seq(|parts|, k requires 0 <= k < |parts| => Substitute(parts[k], z, x, y))
  }

  /** The URL of tile `(z, x, y)` for `template`. */
  function TemplateUrl(template: string, z: Int32, x: Int32, y: Int32): string {
    Concat(Resolved(TemplateParts(template), z, x, y))
  }

  /** Appending the next stored part to the URL built so far (one step of a `buildUrl` loop). */
  lemma ResolvedStep(parts: seq<string>, i: nat, z: Int32, x: Int32, y: Int32)
    requires i < |parts|
    ensures Concat(Resolved(parts[..i + 1], z, x, y))
         == Concat(Resolved(parts[..i], z, x, y)) + Substitute(parts[i], z, x, y)
  {
    assert Resolved(parts[..i + 1], z, x, y)
        == Resolved(parts[..i], z, x, y) + [Substitute(parts[i], z, x, y)];
    ConcatSnoc(Resolved(parts[..i], z, x, y), Substitute(parts[i], z, x, y));
  }

  // ---------------------------------------------------------------------------
  // Properties of the stored parts
  // ---------------------------------------------------------------------------


  /** No stored part contains a brace, and no one-character part is an upper-case letter. */
  lemma PartsShape(template: string)
    ensures forall k | 0 <= k < |TemplateParts(template)| :: NoneOf(TemplateParts(template)[k], Braces)
    ensures forall k | 0 <= k < |TemplateParts(template)| ::
      |TemplateParts(template)[k]| == 1 ==> !('A' <= TemplateParts(template)[k][0] <= 'Z')
  {
    SplitNoneOf(template, Braces);
  }

  /** A built URL never contains a brace. */
  lemma TemplateUrlHasNoBraces(template: string, z: Int32, x: Int32, y: Int32)
    ensures NoneOf(TemplateUrl(template, z, x, y), Braces)
  {
    PartsShape(template);
    var rs := Resolved(TemplateParts(template), z, x, y);
    forall k | 0 <= k < |rs| ensures NoneOf(rs[k], Braces) {
      var p := TemplateParts(template)[k];
      if p == "z" || p == "x" || p == "y" {
        DecHasNoBraces(if p == "z" then z else if p == "x" then x else y);
      }
    }
    ConcatNoneOf(rs, Braces);
  }

  lemma DecHasNoBraces(n: int)
    ensures NoneOf(Dec(n), Braces)
  {
    var d := Dec(n);
    forall i | 0 <= i < |d| ensures d[i] !in Braces {
      assert IsDigit(d[i]) || d[i] == '-';
    }
  }

  /**
   * A literal piece the URL keeps verbatim: anything but a single upper-case letter or a single
   * `x`, `y` or `z` (a one-character `/` or `-` is kept).
   */
  predicate KeptLiteral(piece: string) {
    |piece| == 1 ==> !('A' <= piece[0] <= 'Z') && piece[0] !in {'x', 'y', 'z'}
  }

  lemma KeptLiteralRender(piece: string, z: Int32, x: Int32, y: Int32)
    requires KeptLiteral(piece)
    ensures Substitute(Normalize(piece), z, x, y) == piece
  {
    if |piece| == 1 {
      assert Normalize(piece) == [LowerChar(piece[0])] == piece;
    }
  }

  /** A template without braces whose text the URL keeps is its own URL for every tile. */
  lemma LiteralTemplate(template: string, z: Int32, x: Int32, y: Int32)
    requires NoneOf(template, Braces) && KeptLiteral(template)
    ensures TemplateUrl(template, z, x, y) == template
  {
    assert TemplateParts(template) == [Normalize(template)];
    KeptLiteralRender(template, z, x, y);
    assert Resolved([Normalize(template)], z, x, y) == [template];
    assert Concat([template]) == template + Concat([]);
  }

  // ---------------------------------------------------------------------------
  // Building a URL straight from the pieces between braces
  // ---------------------------------------------------------------------------

  function Render(part: string, z: Int32, x: Int32, y: Int32): string {
    Substitute(Normalize(part), z, x, y)
  }

  function RenderAll(parts: seq<string>, z: Int32, x: Int32, y: Int32): seq<string> {
    seq(|parts|, k requires 0 <= k < |parts| => Render(parts[k], z, x, y))
  }

  lemma {:induction false} ConcatAppendEmpty(ss: seq<string>, n: nat)
    requires n <= |ss| && forall k | n <= k < |ss| :: ss[k] == ""
    ensures Concat(ss) == Concat(ss[..n])
    decreases |ss|
  {
    if n < |ss| {
      var m := |ss| - 1;
      var front := ss[..m];
      assert ss == front + [ss[m]];
      ConcatSnoc(front, ss[m]);
      assert front[..n] == ss[..n];
      ConcatAppendEmpty(front, n);
      assert Concat(ss) == Concat(front) + "";
      assert Concat(front) + "" == Concat(front);
    } else {
      assert ss[..n] == ss;
    }
  }

  /** Dropping trailing empty parts does not change a URL: it is made from all the pieces between braces. */
  lemma TemplateUrlFromSegments(template: string, z: Int32, x: Int32, y: Int32)
    ensures TemplateUrl(template, z, x, y) == Concat(RenderAll(Segments(template, Braces), z, x, y))
  {
    var segs := Segments(template, Braces);
    var all := RenderAll(segs, z, x, y);
    if NoneOf(template, Braces) {
      SegmentsWithoutSeparator(template, Braces);
      assert Resolved(TemplateParts(template), z, x, y) == all;
    } else {
      var kept := DropTrailingEmpty(segs);
      assert Resolved(TemplateParts(template), z, x, y) == all[..|kept|];
      ConcatAppendEmpty(all, |kept|);
    }
  }

  /** The text of the template `p0{cz}p1{cx}p2{cy}p3`. */
  function PlaceholderText(p0: string, cz: char, p1: string, cx: char, p2: string, cy: char, p3: string): string {
    Interleave([p0, [cz], p1, [cx], p2, [cy], p3], "{}{}{}")
  }

  /** The pieces of a template written as `p0{Z}p1{X}p2{Y}p3`, whatever the case of the placeholders. */
  lemma PlaceholderSegments(p0: string, cz: char, p1: string, cx: char, p2: string, cy: char, p3: string)
    requires NoneOf(p0, Braces) && NoneOf(p1, Braces) && NoneOf(p2, Braces) && NoneOf(p3, Braces)
    requires cz !in Braces && cx !in Braces && cy !in Braces
    ensures Segments(PlaceholderText(p0, cz, p1, cx, p2, cy, p3), Braces) == [p0, [cz], p1, [cx], p2, [cy], p3]
  {
    var pieces := [p0, [cz], p1, [cx], p2, [cy], p3];
    forall k | 0 <= k < |pieces| ensures NoneOf(pieces[k], Braces) {
      if k % 2 == 1 {
        assert pieces[k] == [if k == 1 then cz else if k == 3 then cx else cy];
      }
    }
    SegmentsInterleave(pieces, "{}{}{}", Braces);
  }

  lemma ConcatSeven(a: string, b: string, c: string, d: string, e: string, f: string, g: string)
    ensures Concat([a, b, c, d, e, f, g]) == a + b + c + d + e + f + g
  {
    assert Concat([g]) == g by { assert [g][1..] == []; }
    assert Concat([f, g]) == f + g by { assert [f, g][1..] == [g]; }
    assert Concat([e, f, g]) == e + (f + g) by { assert [e, f, g][1..] == [f, g]; }
    assert Concat([d, e, f, g]) == d + (e + (f + g)) by { assert [d, e, f, g][1..] == [e, f, g]; }
    assert Concat([c, d, e, f, g]) == c + (d + (e + (f + g))) by { assert [c, d, e, f, g][1..] == [d, e, f, g]; }
    assert Concat([b, c, d, e, f, g]) == b + (c + (d + (e + (f + g)))) by {
      assert [b, c, d, e, f, g][1..] == [c, d, e, f, g];
    }
    assert [a, b, c, d, e, f, g][1..] == [b, c, d, e, f, g];
  }

  /**
   * Placeholders `{z}`, `{x}`, `{y}` in either case are replaced by the decimal coordinates
   * and the literal text around them is kept, provided no literal piece is a lone upper-case
   * letter or a lone `x`, `y` or `z` (those are lower-cased or substituted instead).
   */
  lemma PlaceholderTemplate(p0: string, cz: char, p1: string, cx: char, p2: string, cy: char, p3: string,
                            z: Int32, x: Int32, y: Int32)
    requires NoneOf(p0, Braces) && NoneOf(p1, Braces) && NoneOf(p2, Braces) && NoneOf(p3, Braces)
    requires KeptLiteral(p0) && KeptLiteral(p1) && KeptLiteral(p2) && KeptLiteral(p3)
    requires cz in {'z', 'Z'} && cx in {'x', 'X'} && cy in {'y', 'Y'}
    ensures TemplateUrl(PlaceholderText(p0, cz, p1, cx, p2, cy, p3), z, x, y)
         == p0 + Dec(z) + p1 + Dec(x) + p2 + Dec(y) + p3
  {
    var t := PlaceholderText(p0, cz, p1, cx, p2, cy, p3);
    var parts := [p0, [cz], p1, [cx], p2, [cy], p3];
    calc {
      TemplateUrl(t, z, x, y);
    == { PlaceholderSegments(p0, cz, p1, cx, p2, cy, p3); TemplateUrlFromSegments(t, z, x, y); }
      Concat(RenderAll(parts, z, x, y));
    == { assert RenderAll(parts, z, x, y) == [p0, Dec(z), p1, Dec(x), p2, Dec(y), p3] by {
           assert Render(parts[1], z, x, y) == Dec(z);
           assert Render(parts[3], z, x, y) == Dec(x);
           assert Render(parts[5], z, x, y) == Dec(y);
           KeptLiteralRender(p0, z, x, y);
           KeptLiteralRender(p1, z, x, y);
           KeptLiteralRender(p2, z, x, y);
           KeptLiteralRender(p3, z, x, y);
         }
       }
      Concat([p0, Dec(z), p1, Dec(x), p2, Dec(y), p3]);
    == { ConcatSeven(p0, Dec(z), p1, Dec(x), p2, Dec(y), p3); }
      p0 + Dec(z) + p1 + Dec(x) + p2 + Dec(y) + p3;
    }
  }

  /**
   * The usual TMS template `<host>{z}/{x}/{y}<suffix>`, such as
   * `https://tile.example/{z}/{x}/{y}.png`, with a `/` between the placeholders.
   */
  lemma SlippyMapTemplate(host: string, suffix: string, z: Int32, x: Int32, y: Int32)
    requires NoneOf(host, Braces) && NoneOf(suffix, Braces) && KeptLiteral(host) && KeptLiteral(suffix)
    ensures TemplateUrl(host + "{z}/{x}/{y}" + suffix, z, x, y)
         == host + Dec(z) + "/" + Dec(x) + "/" + Dec(y) + suffix
  {
    SlippyMapText(host, suffix);
    PlaceholderTemplate(host, 'z', "/", 'x', "/", 'y', suffix, z, x, y);
  }

  /** The slippy-map template written as placeholders between literal pieces. */
  lemma SlippyMapText(host: string, suffix: string)
    ensures PlaceholderText(host, 'z', "/", 'x', "/", 'y', suffix) == host + "{z}/{x}/{y}" + suffix
  {
    SlippyMapTail(suffix);
    assert Interleave(["x", "/", "y", suffix], "}{}") == "x}/{y}" + suffix;
    assert Interleave(["/", "x", "/", "y", suffix], "{}{}") == "/{x}/{y}" + suffix;
    assert Interleave(["z", "/", "x", "/", "y", suffix], "}{}{}") == "z}/{x}/{y}" + suffix;
  }

  /** The `/{y}<suffix>` end of that template. */
  lemma SlippyMapTail(suffix: string)
    ensures Interleave(["/", "y", suffix], "{}") == "/{y}" + suffix
  {
    assert Interleave([suffix], "") == suffix;
    assert Interleave(["y", suffix], "}") == "y}" + suffix;
  }


  /** The text of the template `{cz}c{cy}`: a one-character literal between two placeholders. */
  function BetweenText(cz: char, c: char, cy: char): string {
    Interleave(["", [cz], [c], [cy], ""], "{}{}")
  }

  lemma LiteralBetweenSegments(cz: char, c: char, cy: char)
    requires cz !in Braces && c !in Braces && cy !in Braces
    ensures Segments(BetweenText(cz, c, cy), Braces) == ["", [cz], [c], [cy], ""]
  {
    var pieces := ["", [cz], [c], [cy], ""];
    forall k | 0 <= k < |pieces| ensures NoneOf(pieces[k], Braces) {
      if 1 <= k <= 3 {
        assert pieces[k] == [if k == 1 then cz else if k == 2 then c else cy];
      }
    }
    SegmentsInterleave(pieces, "{}{}", Braces);
  }

  lemma ConcatBetweenEmpty(a: string, b: string, c: string)
    ensures Concat(["", a, b, c, ""]) == a + b + c
  {
    assert Concat([""]) == "" by { assert [""][1..] == []; }
    assert Concat([c, ""]) == c by { assert [c, ""][1..] == [""]; }
    assert Concat([b, c, ""]) == b + c by { assert [b, c, ""][1..] == [c, ""]; }
    assert Concat([a, b, c, ""]) == a + (b + c) by { assert [a, b, c, ""][1..] == [b, c, ""]; }
    assert ["", a, b, c, ""][1..] == [a, b, c, ""];
  }

  /**
   * A one-character literal between the placeholders `{z}` and `{y}` (in either case) is
   * lower-cased and, when it is then a coordinate letter, substituted like a placeholder.
   */
  lemma LiteralBetweenPlaceholders(cz: char, c: char, cy: char, z: Int32, x: Int32, y: Int32)
    requires cz in {'z', 'Z'} && c !in Braces && cy in {'y', 'Y'}
    ensures TemplateUrl(BetweenText(cz, c, cy), z, x, y) == Dec(z) + Substitute([LowerChar(c)], z, x, y) + Dec(y)
  {
    var t := BetweenText(cz, c, cy);
    var mid := Substitute([LowerChar(c)], z, x, y);
    var parts := ["", [cz], [c], [cy], ""];
    calc {
      TemplateUrl(t, z, x, y);
    == { LiteralBetweenSegments(cz, c, cy); TemplateUrlFromSegments(t, z, x, y); }
      Concat(RenderAll(parts, z, x, y));
    == { assert RenderAll(parts, z, x, y) == ["", Dec(z), mid, Dec(y), ""] by {
           assert Render(parts[1], z, x, y) == Dec(z);
           assert Render(parts[2], z, x, y) == mid;
           assert Render(parts[3], z, x, y) == Dec(y);
         }
       }
      Concat(["", Dec(z), mid, Dec(y), ""]);
    == { ConcatBetweenEmpty(Dec(z), mid, Dec(y)); }
      Dec(z) + mid + Dec(y);
    }
  }

  /**
   * In `{z}c{y}`, an `x` in either case yields the three numbers side by side, and an upper-case
   * letter from `A` to `W` is kept, lower-cased, between two (`{z}A{y}` gives an `a`).
   */
  lemma OneCharacterLiteral(c: char, z: Int32, x: Int32, y: Int32)
    ensures c == 'x' || c == 'X' ==> TemplateUrl(BetweenText('z', c, 'y'), z, x, y) == Dec(z) + Dec(x) + Dec(y)
    ensures 'A' <= c <= 'W' ==>
      TemplateUrl(BetweenText('z', c, 'y'), z, x, y) == Dec(z) + [(c as int + 32) as char] + Dec(y)
  {
    if c == 'x' || c == 'X' {
      LiteralBetweenPlaceholders('z', c, 'y', z, x, y);
      assert [LowerChar(c)] == "x";
    } else if 'A' <= c <= 'W' {
      LiteralBetweenPlaceholders('z', c, 'y', z, x, y);
      var l := LowerChar(c);
      assert l as int == c as int + 32 && 'a' <= l <= 'w';
      assert [l] != "x" && [l] != "y" && [l] != "z";
    }
  }
}

=== FILE: tile_cache_result.dfy ===
/** `data/TileCacheResult`: what a cache lookup hands back. */
module CacheResults {
  import opened Util
  import opened Strings

  type Buffer = seq<bv8>

  /** A record of three nullable fields; None stands for null. */
  datatype TileCacheResult = TileCacheResult(extension: Option<string>, filePath: Option<string>,
                                             fileContents: Option<Buffer>)
  {
    /** The identity test against `EMPTY` is subsumed by the field test: a record equals `EMPTY` exactly when all fields are null. */
    predicate IsEmpty()
      ensures IsEmpty() <==> this == EMPTY
    {
      extension.None? && filePath.None? && fileContents.None?
    }
  }

  const EMPTY: TileCacheResult := TileCacheResult(None, None, None)

  const PathSeparators: set<char> := {'/', '\\'}
  const Dot: set<char> := {'.'}

  /** The last piece of `path` split at `/` and `\`; None when that split is empty (a path of separators only). */
  function LastComponent(path: string): (r: Option<string>)
    ensures r.Some? ==> NoneOf(r.value, PathSeparators)
    ensures r.None? <==> path != "" && forall i | 0 <= i < |path| :: path[i] in PathSeparators
  {
    var parts := Split(path, PathSeparators);
    SplitFirst(path, PathSeparators);
    if parts == [] then None
    else
      SplitNoneOf(path, PathSeparators);
      Some(parts[|parts| - 1])
  }

  /**
   * The component taken is the text after the last separator, once separators at the end
   * of the path are ignored (`a/b/` gives `b`).
   */
  lemma LastComponentIsLastPiece(path: string)
    requires LastComponent(path).Some?
    ensures LastComponent(path).value == LastPiece(DropTrailingSeps(path, PathSeparators), PathSeparators)
  {
    SplitLast(path, PathSeparators);
  }

  /** A tile found on disk: the extension is what follows the first `.` of the file name. */
  function OfFilePath(filePath: string): (r: Result<TileCacheResult, IndexError>)
    ensures r.Failure? <==> LastComponent(filePath).None? || NoneOf(LastComponent(filePath).value, Dot)
    ensures r.Success? ==> r.value.filePath == Some(filePath) && r.value.fileContents.None?
    ensures r.Success? ==> r.value.extension.Some? && !r.value.IsEmpty()
    ensures r.Success? ==>
      var name := LastComponent(filePath).value;
      name == TakeUntil(name, Dot) + "." + r.value.extension.value
  {
    match LastComponent(filePath)
    case None => Failure(IndexOutOfBounds)
    case Some(name) =>
      var base := TakeUntil(name, Dot);
      if |base| == |name| then
        assert base == name;
        Failure(IndexOutOfBounds)
      else
        assert name == base + "." + name[|base| + 1..] by {
          assert base <= name && |base| < |name|;
          assert name[..|base|] == base;
          assert name[|base|] == '.';
          assert name == name[..|base|] + [name[|base|]] + name[|base| + 1..];
        }
        Success(TileCacheResult(Some(name[|base| + 1..]), Some(filePath), None))
  }

  /** A tile read into memory: extension and contents set, no file path. */
  function OfFileContents(extension: string, fileContents: Buffer): (r: TileCacheResult)
    ensures !r.IsEmpty()
    ensures r.filePath.None? && r.extension == Some(extension) && r.fileContents == Some(fileContents)
  {
    TileCacheResult(Some(extension), None, Some(fileContents))
  }

  /**
   * A file named `tile.<ext>` at the end of any path gives back `ext`, even when `ext`
   * holds further dots (`tile.tar.gz` gives `tar.gz`) or is empty.
   */
  lemma OfFilePathTile(dir: string, sep: char, ext: string)
    requires sep in PathSeparators && NoneOf(ext, PathSeparators)
    ensures OfFilePath(dir + [sep] + "tile." + ext)
         == Success(TileCacheResult(Some(ext), Some(dir + [sep] + "tile." + ext), None))
  {
    var path := dir + [sep] + "tile." + ext;
    var name := "tile." + ext;
    assert LastComponent(path) == Some(name) by {
      assert NoneOf(name, PathSeparators) by {
        forall i | 0 <= i < |name| ensures name[i] !in PathSeparators {
          if i >= 5 { assert name[i] == ext[i - 5]; }
        }
      }
      assert path == dir + [sep] + name;
      SegmentsAround(dir, sep, name, PathSeparators);
      SegmentsWithoutSeparator(name, PathSeparators);
      assert path[|dir|] == sep;
      var segs := Segments(path, PathSeparators);
      assert segs[|segs| - 1] == name;
      assert Split(path, PathSeparators) == segs;
    }
    assert TakeUntil(name, Dot) == "tile" by {
      assert name == "tile" + ['.'] + ext;
      TakeUntilAt("tile", '.', ext, Dot);
    }
    assert name[5..] == ext;
  }

  /** A file name without a dot, such as `tile`, makes `ofFilePath` fail. */
  lemma OfFilePathWithoutDot(dir: string, sep: char, name: string)
    requires sep in PathSeparators && name != ""
    requires NoneOf(name, PathSeparators) && NoneOf(name, Dot)
    ensures OfFilePath(dir + [sep] + name).Failure?
  {
    var path := dir + [sep] + name;
    SegmentsAround(dir, sep, name, PathSeparators);
    SegmentsWithoutSeparator(name, PathSeparators);
    assert path[|dir|] == sep;
    var segs := Segments(path, PathSeparators);
    assert segs[|segs| - 1] == name;
    assert LastComponent(path) == Some(name);
  }
}

=== FILE: tms_handler.dfy ===
/**
 * `handlers/TMSHandler`: serves `GET /tms/:name/:z/:x/:y` by fetching the tile from the
 * layer's upstream URL and passing the upstream response through. The routing context is a
 * class whose fields the handler updates; the HTTP client is a function from URL to the
 * upstream outcome.
 */
module Tms {
  import opened Util
  import opened Strings
  import opened Templates
  import ConfigSources

  /** The path parameters the route binds. */
  datatype PathParams = PathParams(name: string, z: string, x: string, y: string)

  /** What the upstream GET produced: a response, or a failure to obtain one. */
  datatype Upstream =
    | UpstreamResponse(status: int, contentType: Option<string>, contentLength: Option<string>, body: seq<bv8>)
    | TransportFailure

  /** How `handle` reads the path parameters. */
  datatype Parsed =
    | Coordinates(name: string, z: Int32, x: Int32, y: Int32)
    | NotANumber   // a NumberFormatException, caught
    | NoYPart      // the split of `y` is empty: an index error escapes `handle`

  const Dot: set<char> := {'.'}

  /**
   * `z` and `x` are parsed whole; only the text of `y` before its first dot is parsed. A `y`
   * made only of dots splits into nothing, and indexing that fails.
   */
  function ParseParams(p: PathParams): (r: Parsed)
    ensures r.Coordinates? ==> r.name == p.name && ParseInt(p.z) == Some(r.z) && ParseInt(p.x) == Some(r.x)
    ensures ParseInt(p.z).None? || ParseInt(p.x).None? ==> r == NotANumber
    ensures r.Coordinates? ==> ParseInt(TakeUntil(p.y, Dot)) == Some(r.y)
    ensures r == NoYPart <==>
      && ParseInt(p.z).Some? && ParseInt(p.x).Some?
      && p.y != "" && forall i | 0 <= i < |p.y| :: p.y[i] == '.'
    ensures r.Coordinates? <==>
      && ParseInt(p.z).Some? && ParseInt(p.x).Some?
      && ParseInt(TakeUntil(p.y, Dot)).Some?
      && !(p.y != "" && forall i | 0 <= i < |p.y| :: p.y[i] == '.')
  {
    if ParseInt(p.z).None? || ParseInt(p.x).None? then NotANumber
    else
      var pieces := Split(p.y, Dot);
      SplitFirst(p.y, Dot);
      if pieces == [] then NoYPart
      else match ParseInt(pieces[0])
        case Some(y) => Coordinates(p.name, ParseInt(p.z).value, ParseInt(p.x).value, y)
        case None => NotANumber
  }

  /** A response under construction: status (200 until set), headers, the body sent so far and whether it has ended. */
  datatype Response = Response(statusCode: int, headers: map<string, string>, body: seq<bv8>, ended: bool)

  /** `putHeader` with the upstream header's value; an absent value leaves the header out. */
  function PutHeader(headers: map<string, string>, name: string, value: Option<string>): map<string, string> {
    match value
    case Some(v) => headers[name := v]
    case None => headers - {name}
  }

  class RoutingContext {
    var response: Response
    /** Whether `next()` passed the request on to the following handler. */
    var nextCalled: bool

    constructor ()
      ensures response == Response(200, map[], [], false) && !nextCalled
    {
      response := Response(200, map[], [], false);
      nextCalled := false;
    }
  }

  /** The layer map the handler reads: every layer's parts match its template. */
  ghost predicate LayersValid(layers: map<string, ConfigSources.TileSource>)
    reads set n | n in layers :: layers[n].urlParts
  {
    forall n | n in layers :: layers[n].Valid()
  }

  /**
   * `handle` followed by `handleTmsRequest`. Returns whether an exception escaped and the URL
   * requested upstream, if any. A request that does not parse or names an unknown layer is
   * passed on without an upstream request. `accepts` says whether the client's
   * `setAbsoluteURI` takes the layer's URL; when it refuses (a malformed URL, or a scheme other
   * than http and https) its exception is not a NumberFormatException and escapes, before any
   * request. Otherwise the upstream answer to the layer's URL is forwarded with its status,
   * content type and length, and a transport failure becomes an empty 400 response.
   */
  method Handle(ctx: RoutingContext, p: PathParams, layers: map<string, ConfigSources.TileSource>,
                accepts: string -> bool, fetch: string -> Upstream) returns (escaped: bool, requested: Option<string>)
    requires LayersValid(layers)
    modifies ctx
    ensures var c := ParseParams(p);
      escaped <==> c == NoYPart
                   || (c.Coordinates? && c.name in layers && !accepts(TemplateUrl(layers[c.name].template, c.z, c.x, c.y)))
    ensures var c := ParseParams(p);
      requested == if c.Coordinates? && c.name in layers && accepts(TemplateUrl(layers[c.name].template, c.z, c.x, c.y))
                   then Some(TemplateUrl(layers[c.name].template, c.z, c.x, c.y)) else None
    ensures ParseParams(p) == NotANumber || (ParseParams(p).Coordinates? && ParseParams(p).name !in layers) ==>
      ctx.nextCalled && ctx.response == old(ctx.response)
    ensures escaped ==> ctx.nextCalled == old(ctx.nextCalled) && ctx.response == old(ctx.response)
    ensures var c := ParseParams(p);
      c.Coordinates? && c.name in layers && accepts(TemplateUrl(layers[c.name].template, c.z, c.x, c.y)) ==>
        var url := TemplateUrl(layers[c.name].template, c.z, c.x, c.y);
        && ctx.nextCalled == old(ctx.nextCalled)
        && match fetch(url)
           case UpstreamResponse(status, contentType, contentLength, body) =>
             ctx.response == old(ctx.response).(statusCode := status,
               headers := PutHeader(PutHeader(old(ctx.response.headers), "Content-Type", contentType), "Content-Length", contentLength),
               body := old(ctx.response.body) + body, ended := true)
           case TransportFailure =>
             ctx.response == old(ctx.response).(statusCode := 400, ended := true)
  {
    var parsed := ParseParams(p);
    requested := None;
    if parsed.NoYPart? {
      return true, None;
    }
    escaped := false;
    if parsed.NotANumber? {
      ctx.nextCalled := true;
      return;
    }
    if parsed.name !in layers {
      ctx.nextCalled := true;
      return;
    }
    var layer := layers[parsed.name];
    var url := layer.BuildUrl(parsed.z, parsed.x, parsed.y);
    if !accepts(url) {
      return true, None;
    }
    requested := Some(url);
    match fetch(url)
    case UpstreamResponse(status, contentType, contentLength, body) =>
      ctx.response := ctx.response.(statusCode := status);
      ctx.response := ctx.response.(headers := PutHeader(ctx.response.headers, "Content-Type", contentType));
      ctx.response := ctx.response.(headers := PutHeader(ctx.response.headers, "Content-Length", contentLength));
      ctx.response := ctx.response.(body := ctx.response.body + body, ended := true);
    case TransportFailure =>
      ctx.response := ctx.response.(statusCode := 400);
      ctx.response := ctx.response.(ended := true);
  }

  // ---------------------------------------------------------------------------
  // Properties of the request parsing
  // ---------------------------------------------------------------------------

  lemma DecHasNoDot(n: int)
    ensures NoneOf(Dec(n), Dot) && Dec(n)[0] !in Dot
  {
  }

  /** Only the part of `y` before the first dot counts: `5.png` reads as `5`, like `5` itself. */
  lemma YSuffixDiscarded(name: string, z: Int32, x: Int32, y: Int32, extension: string)
    ensures ParseParams(PathParams(name, Dec(z), Dec(x), Dec(y) + "." + extension)) == Coordinates(name, z, x, y)
    ensures ParseParams(PathParams(name, Dec(z), Dec(x), Dec(y))) == Coordinates(name, z, x, y)
  {
    ParseIntDec(z);
    ParseIntDec(x);
    ParseIntDec(y);
    DecHasNoDot(y);
    var withSuffix := Dec(y) + "." + extension;
    assert withSuffix == Dec(y) + ['.'] + extension;
    SplitFirst(withSuffix, Dot);
    TakeUntilAt(Dec(y), '.', extension, Dot);
    SplitFirst(Dec(y), Dot);
    TakeUntilAll(Dec(y), Dot);
  }

  /** A leading sign is accepted, as `Integer.parseInt` accepts it. */
  lemma SignedCoordinates(name: string, z: Int32, x: Int32, y: Int32)
    requires z >= 0
    ensures ParseParams(PathParams(name, "+" + Dec(z), Dec(x), Dec(y))) == Coordinates(name, z, x, y)
  {
    ParseIntPlus(z);
    YSuffixDiscarded(name, z, x, y, "");
  }

  /** An empty text before the first dot of `y` (as in `.png`) passes the request on. */
  lemma EmptyYPassesOn(name: string, z: Int32, x: Int32, extension: string)
    requires exists i | 0 <= i < |extension| :: extension[i] != '.'
    ensures ParseParams(PathParams(name, Dec(z), Dec(x), "." + extension)) == NotANumber
  {
    ParseIntDec(z);
    ParseIntDec(x);
    var y := "." + extension;
    assert y == [] + ['.'] + extension;
    var i :| 0 <= i < |extension| && extension[i] != '.';
    assert y[i + 1] !in Dot;
    SplitFirst(y, Dot);
    TakeUntilAt([], '.', extension, Dot);
  }

  /** A `y` made only of dots, after good `z` and `x`, makes `handle` fail with an index error. */
  lemma DotsOnlyEscapes(name: string, z: Int32, x: Int32, y: string)
    requires y != "" && forall i | 0 <= i < |y| :: y[i] == '.'
    ensures ParseParams(PathParams(name, Dec(z), Dec(x), y)) == NoYPart
  {
    ParseIntDec(z);
    ParseIntDec(x);
    SplitFirst(y, Dot);
  }

  // ---------------------------------------------------------------------------
  // getPathParams
  // ---------------------------------------------------------------------------

  /** Java's `String.compareTo` order, by character codes. */
  predicate Below(a: string, b: string) {
    if a == [] then b != []
    else if b == [] then false
    else if a[0] != b[0] then a[0] < b[0]
    else Below(a[1..], b[1..])
  }

  function Entry(key: string, value: string): string {
    key + " = " + value
  }

  /** The line for each key, in the order of `keys`. */
  function Lines(keys: seq<string>, params: map<string, string>): (r: seq<string>)
    requires forall k | k in keys :: k in params
    ensures |r| == |keys|
  {
    seq(|keys|, i requires 0 <= i < |keys| => Entry(keys[i], params[keys[i]]) + "\n")
  }

  /**
   * Lists the path parameters one per line, `key = value`, in key order. The sorted key list,
   * which the source obtains from the library's stream sort, is an input.
   */
  method GetPathParams(params: map<string, string>, sortedKeys: seq<string>) returns (text: string)
    requires params.Keys == set k | k in sortedKeys
    requires forall i, j | 0 <= i < j < |sortedKeys| :: Below(sortedKeys[i], sortedKeys[j])
    ensures text == Concat(Lines(sortedKeys, params))
  {
    text := "";
    for i := 0 to |sortedKeys|
      invariant text == Concat(Lines(sortedKeys[..i], params))
    {
      var key := sortedKeys[i];
      assert Lines(sortedKeys[..i + 1], params) == Lines(sortedKeys[..i], params) + [Entry(key, params[key]) + "\n"];
      ConcatSnoc(Lines(sortedKeys[..i], params), Entry(key, params[key]) + "\n");
      text := text + key + " = " + params[key] + "\n";
    }
    assert sortedKeys[..|sortedKeys|] == sortedKeys;
  }

  function Entries(keys: seq<string>, params: map<string, string>): (r: seq<string>)
    requires forall k | k in keys :: k in params
    ensures |r| == |keys|
  {
    seq(|keys|, i requires 0 <= i < |keys| => Entry(keys[i], params[keys[i]]))
  }

  lemma {:induction false} LinesSegments(keys: seq<string>, params: map<string, string>)
    requires forall k | k in keys :: k in params && NoneOf(k, {'\n'}) && NoneOf(params[k], {'\n'})
    ensures Segments(Concat(Lines(keys, params)), {'\n'}) == Entries(keys, params) + [""]
  {
    var nl := {'\n'};
    if keys == [] {
      assert Concat(Lines(keys, params)) == "";
    } else {
      var first := Entry(keys[0], params[keys[0]]);
      var lines := Lines(keys, params);
      assert lines[1..] == Lines(keys[1..], params);
      assert Entries(keys, params) == [first] + Entries(keys[1..], params);
      LinesSegments(keys[1..], params);
      assert NoneOf(first, nl) by {
        var k, v := keys[0], params[keys[0]];
        assert k in keys;
        forall i | 0 <= i < |first| ensures first[i] !in nl {
          if i < |k| {
            assert first[i] == k[i];
          } else if i >= |k| + 3 {
            assert first[i] == v[i - |k| - 3];
          }
        }
      }
      assert Concat(lines) == first + ['\n'] + Concat(lines[1..]);
      SegmentsAround(first, '\n', Concat(lines[1..]), nl);
      SegmentsWithoutSeparator(first, nl);
    }
  }

  /**
   * With no line break inside keys or values, splitting the text at line breaks gives back
   * exactly one `key = value` entry per parameter, in key order.
   */
  lemma PathParamsLines(params: map<string, string>, sortedKeys: seq<string>)
    requires sortedKeys != []
    requires forall k | k in sortedKeys :: k in params && NoneOf(k, {'\n'}) && NoneOf(params[k], {'\n'})
    ensures Split(Concat(Lines(sortedKeys, params)), {'\n'}) == Entries(sortedKeys, params)
  {
    var nl := {'\n'};
    var text := Concat(Lines(sortedKeys, params));
    var entries := Entries(sortedKeys, params);
    LinesSegments(sortedKeys, params);
    ConcatSegments(text, nl);
    var segs := entries + [""];
    assert entries[|entries| - 1] != "" by {
      assert |entries[|entries| - 1]| >= 3;
    }
    if NoneOf(text, nl) {
      SegmentsWithoutSeparator(text, nl);
    }
    var r := DropTrailingEmpty(segs);
    assert r == entries;
  }
}

=== FILE: util.dfy ===
/** Small shared vocabulary: optional values, results with `:-` support and Java's `int`. */
module Util {

  datatype Option<+T> = None | Some(value: T)

  /** A computation that either produced a value or raised the error `error`. */
  datatype Result<+T, +E> = Success(value: T) | Failure(error: E) {
    predicate IsFailure() { Failure? }

    function PropagateFailure<U>(): Result<U, E>
      requires Failure?
    {
      Failure(error)
    }

    function Extract(): T
      requires Success?
    {
      value
    }
  }

  /** Java's exception for an index outside a list, an array or a string. */
  datatype IndexError = IndexOutOfBounds

  const TWO_31: int := 0x8000_0000
  const TWO_32: int := 0x1_0000_0000

  /** Java's 32-bit signed `int`. */
  type Int32 = x: int | -TWO_31 <= x < TWO_31

  /** Java's narrowing of an integral number to `int` (`Number.intValue()`): keep the low 32 bits. */
  function Wrap32(n: int): (r: Int32)
    ensures (r - n) % TWO_32 == 0
    ensures -TWO_31 <= n < TWO_31 ==> r == n
  {
    var m := n % TWO_32;
    if m < TWO_31 then m else m - TWO_32
  }
}
